=== FILE: README.md ===
# HallHop popup core in Dafny

HallHop is a browser extension that shows a student's current class and
times hall passes. This project models the logic behind its popup and proves
properties of that model:

- **The period resolver** (`getCurrentClassInfo`). It takes a fetched
  schedule report and the local date and time. It computes the A/B day type
  by counting weekdays from an anchor date, then the active period from a
  fixed timetable. It picks the report row for that period, or the first row
  if none matches. For the mid-day periods it adds a lunch wave chosen by
  room-number prefix. It also returns the right message for a missing
  report, a weekend or a malformed row. This is modelled in modules
  `Calendar`, `Schedule` and `ResolverProperties`.
- **The check-out timer** (`startTimer`, `stopTimer`, `formatDuration`).
  `Timer` models the shared start instant, the elapsed-time arithmetic and
  the "{m}m {s}s" rendering. JavaScript's truncating `%` is written out. The
  printed integers and their reader are in `Decimal`.
- **The check-out button** (`setupCheckout`). `Checkout` models it as a
  state machine with these parts:
  - the weekend, after-hours and before-hours guards, in the code's order;
  - the checked-in/checked-out toggle;
  - the rollback when logging a check-out throws, and the absence of one on
    check-in;
  - restoring a saved check-out from storage.
- **The API layer's pure parts** (`Api`): `formatName` ("Last, First" to
  "First Last") and the `{name}` wrapping of the student-info reply. Also
  the query string of the schedule-report request, read back by a separate
  query-string reader.

`JsValue` and `JsText` model the JavaScript behaviour the code depends on:
- truthiness, `String(v)` and `v || fallback`;
- `trim`, `startsWith` and one-character `split`.

Each operation is paired with an independent statement of what it should
do, and lemmas connect the two:
- `CountSchoolDays` against the set of weekdays in the range;
- `FindSlot` and `FindRow` against first-match quantifiers;
- `formatDuration` against a parser of its output;
- `ReportUrl` against a query-string reader;
- the click guards against a declarative check-out window;
- `Trim` against "the tight core of a white-space padding";
- `Stop` against the sequence of starts before it (`RestartOverwrites`);
- the student-name wrapper against `formatName`'s swap and its
  idempotence (`StudentNameShown`).

Some behaviours of the code are easy to misread:
- A missing report is reported before the weekend is checked. On a weekend
  with no report data, the result is "Could not retrieve your schedule."
- When no row carries the active period, the first row is shown, with its
  own period. A report whose only row is period "01" therefore shows period
  "1" at 13:00, with no lunch wave (`ScenarioMidDayWithoutPeriodThree`).
- The weekday count runs from the anchor date to today, both ends included,
  and an even count is an A day. Where the anchor string "2025-04-23" is read
  as local 2025-04-23 (at or east of UTC), the anchor date itself resolves to
  a B day (`AnchorIsBDay`). The comment beside the anchor names 2025-04-16 as
  an A day; under that same reading the code agrees with the comment from the
  anchor on (`DayTypeMatchesCommentFromAnchor`). Between the two dates the
  code gives A every day, so the two disagree on 2025-04-17 and 2025-04-21
  only (`CommentDisagreesOnTwoDays`).
  West of UTC, which includes the school district the code links to, the
  string parses to the evening of 2025-04-22. The count then starts on that
  Tuesday, so 2025-04-23 is an A day and every day type from the anchor on is
  the opposite (`AnchorOneDayEarlierFlips`).
- Lunch bands are plain prefix tests, so any room that matches none of the
  A, B or C prefixes falls to wave D. That includes "905" and "1320".
- A click at 16:20 is rejected as after hours, although 16:20 still lies
  inside the timetable's last slot, whose bounds are inclusive
  (`LastSlotEndIsAfterHours`).

## Model

| member | source | states |
|---|---|---|
| Calendar.CountSchoolDays | js/popup/schedule.js:63-75 | the day-by-day loop returns exactly the number of non-Saturday, non-Sunday days in the inclusive range, and 0 for an empty range |
| Calendar.SchoolDaysCountsWeekdays | js/popup/schedule.js:63-75 | the recursive weekday count equals the size of the set of weekdays in the range |
| Calendar.Weekday | js/popup/schedule.js:48 | `getDay()` on the local date: always 0..6; `WeekdayNext` and `WeekdayAhead` state that it advances by one each day, modulo 7 |
| Calendar.IsWeekend | js/popup/schedule.js:52 | (no contract of its own) a day whose `getDay()` is 0 or 6, also tested at js/popup/checkout.js:35 and 136; `TwoWeekendDays` and `SevenDaysFiveWeekdays` state that every seven consecutive days hold exactly two |
| Calendar.DayTypeAlternates | js/popup/schedule.js:77-81 | from the anchor on, a weekend day keeps the previous day's type and every weekday flips it |
| Calendar.AnchorIsBDay | js/popup/schedule.js:58-81 | because both endpoints are counted, the anchor date 2025-04-23 is itself a B day |
| Calendar.BeforeAnchorIsADay | js/popup/schedule.js:63-81 | before the anchor the loop counts nothing, so every earlier date is an A day |
| Calendar.DayTypeWeekLater | js/popup/schedule.js:63-81 | the same weekday one week later has the opposite day type |
| Calendar.DayTypeMatchesCommentFromAnchor | js/popup/schedule.js:57-60 | on and after the anchor, the type is A exactly when the weekdays counted from the day after 2025-04-16 are even |
| Calendar.DayTypeOn | js/popup/schedule.js:77-81 | (no contract of its own) the parity of the inclusive weekday count; `DayTypeAlternates`, `AnchorIsBDay` and `BeforeAnchorIsADay` state its behaviour |
| Calendar.AnchorOneDayEarlierFlips | js/popup/schedule.js:59-68 | when the anchor parses to the previous local day, every day type from the anchor on is the opposite of the one computed from local 2025-04-23 |
| Calendar.CommentDisagreesOnTwoDays | js/popup/schedule.js:57-81 | strictly between 2025-04-16 and 2025-04-23 the code and the comment's count give different day types exactly on 2025-04-17 and 2025-04-21 |
| Calendar.DayTypeDisagreesWithCommentBeforeAnchor | js/popup/schedule.js:57-60 | on 2025-04-17 the code gives an A day while counting from the commented date gives a B day |
| Schedule.StripZerosPrefix | js/popup/schedule.js:92 | stripping leading zeros from zeros followed by a string not starting with '0' gives exactly that string |
| Schedule.StripDropsZeros | js/popup/schedule.js:92 | what the strip removes is all '0' characters |
| Schedule.StripIdempotent | js/popup/schedule.js:92 | stripping leading zeros twice is stripping once |
| Schedule.PaddedPeriodsAgree | js/popup/schedule.js:92 | any run of zeros in front of a period does not change its normalised key |
| Schedule.NormaliseRows | js/popup/schedule.js:90-97 | the map succeeds exactly when every row's period cell is a string, and then keeps the row count |
| Schedule.ScheduleSlotsDisjoint | js/popup/schedule.js:105-120 | each day has four slots, each well formed, in order and separated by gaps |
| Schedule.DaySchedule | js/popup/schedule.js:105-120 | (no contract of its own) the A and B timetables; `ScheduleSlotsDisjoint`, `ActivePeriodBelongsToDay` and `MidDayIsThirdSlot` state their shape |
| Schedule.FirstPeriod | js/popup/schedule.js:141 | (no contract of its own) "1" on A days and "5" on B days; `ActivePeriodOutsideSlots` states when it applies |
| Schedule.FindSlot | js/popup/schedule.js:126-137 | the search returns the first slot containing the minute, or none when no slot contains it |
| Schedule.ActivePeriod | js/popup/schedule.js:122-143 | the period is that of a slot containing the current minute, or the day's first period when no slot does |
| Schedule.ActivePeriodInSlot | js/popup/schedule.js:128-137 | any slot containing the minute (bounds inclusive) decides the period |
| Schedule.ActivePeriodOutsideSlots | js/popup/schedule.js:139-143 | before 8:45, after 16:20 and in the passing gaps the period is "1" on A days and "5" on B days |
| Schedule.ActivePeriodBelongsToDay | js/popup/schedule.js:104-143 | A days only run periods 1-4 and B days only periods 5-8 |
| Schedule.FindRow | js/popup/schedule.js:148 | the find returns the first row carrying the period, or none when no row does |
| Schedule.SelectRow | js/popup/schedule.js:148-154 | a row is selected exactly when the list is non-empty, and it is one of the rows |
| Schedule.SelectRowChoice | js/popup/schedule.js:148-154 | the selected row is the first carrier of the period if there is one, else the first row |
| Schedule.LunchWaveBands | js/popup/schedule.js:175-198 | the wave is the first of A, B, C (in that order) whose building prefixes the room starts with, and D when none matches, so the D list never changes the outcome |
| Schedule.LunchWaveExamples | js/popup/schedule.js:175-187 | "1000x" and "900B" get wave A, "1001" gets B and "2300" gets C |
| Schedule.LunchWaveDefaults | js/popup/schedule.js:188-198 | "905" and "1320" match no band prefix and get the default wave D |
| Schedule.LunchFor | js/popup/schedule.js:167-201 | a lunch wave is attached exactly when the row's period is the third slot of an A or B day and its room is truthy; it is A, B or C for the first of those bands whose prefixes the trimmed room text starts with, and D when none matches |
| Schedule.MidDayIsThirdSlot | js/popup/schedule.js:168 | the periods "3" and "7" checked for lunch are exactly the third timetable slots of the two day types |
| Schedule.IsMidDayPeriod | js/popup/schedule.js:168 | (no contract of its own) the test that the period is "3" or "7"; `MidDayIsThirdSlot` and `LunchFor` state its meaning |
| Schedule.LunchWaveFor | js/popup/schedule.js:171-198 | (no contract of its own) the band chain; `LunchWaveBands` states its outcome through the prefix lists |
| Schedule.StripLeadingZeros | js/popup/schedule.js:92 | the result is a suffix of the input that is empty or does not start with '0'; `StripDropsZeros` adds that only zeros were removed |
| Schedule.NormaliseRow | js/popup/schedule.js:90-96 | (no contract of its own) one row of the map; `NormaliseRows`, `ResolveErrorIffBadPeriod` and `PaddedPeriodSameRow` state its behaviour |
| Schedule.ClassFor | js/popup/schedule.js:122-218 | (no contract of its own) the result once rows are normalised; `ResolvePicksActiveRow`, `ResolveFallsBackToFirstRow` and `ResolveResultShape` state it |
| Schedule.Resolve | js/popup/schedule.js:25-55 | a missing report or falsy data gives the no-schedule message; otherwise a weekend gives the weekend message |
| Schedule.GetCurrentClassInfo | js/popup/schedule.js:223-227 | a failed fetch or parse gives the generic error message; `GetCurrentClassInfoErrorIff` states exactly when that message arises |
| ResolverProperties.GetCurrentClassInfoErrorIff | js/popup/schedule.js:25-227 | the generic error message is returned exactly when the fetch or parse failed, or on a weekday the report data is not an array or some row's period cell is not a string; a missing report, falsy data or a weekend never produce it |
| ResolverProperties.ResolveErrorIffBadPeriod | js/popup/schedule.js:90-97 | on a weekday with row data, the generic error arises exactly when some row's period cell is not a string |
| ResolverProperties.DataNotAnArrayIsError | js/popup/schedule.js:90-97 | truthy data that is not an array makes the map throw, so the generic error is returned |
| ResolverProperties.EmptyRowsNoClassInfo | js/popup/schedule.js:156-163 | an empty row list gives "No class information available" with the day type and the empty period list |
| ResolverProperties.ResolveResultShape | js/popup/schedule.js:204-218 | a full result is for a weekday and carries today's type and date, a row of the normalised list, and a lunch wave exactly for a mid-day period with a room |
| ResolverProperties.ResolveUsesNormalisedRows | js/popup/schedule.js:90-163 | on a weekday with well-formed rows the result depends only on the normalised rows, the name and the time |
| ResolverProperties.ResolvePicksActiveRow | js/popup/schedule.js:147-213 | when a row carries the active period, the result is the first such row, with the name defaulting to "Student" |
| ResolverProperties.ResolveFallsBackToFirstRow | js/popup/schedule.js:150-218 | when no row carries the active period, the whole result comes from the first row: its period, class, teacher, room and lunch wave, with the name defaulting to "Student", today's date and type, and all rows |
| ResolverProperties.DayTypeIgnoresTimeOfDay | js/popup/schedule.js:77-81 | two results on the same date have the same day type |
| ResolverProperties.ResolveLunch | js/popup/schedule.js:167-218 | a full result has a lunch wave exactly for period "3" or "7" with a truthy room, and it is the wave of the trimmed room |
| ResolverProperties.PaddedPeriodSameRow | js/popup/schedule.js:90-97 | a row whose period is zero-padded normalises to the same row as the unpadded one |
| ResolverProperties.ATuesdayIsADay | js/popup/schedule.js:63-81 | Tuesday 2025-05-06 is a weekday and an A day |
| ResolverProperties.ScenarioMorningClass | js/popup/schedule.js:123-154 | on an A weekday at 09:00 a single row for period "01" is the current class, shown as period "1" for "Student" with no lunch |
| ResolverProperties.ScenarioMidDayWithoutPeriodThree | js/popup/schedule.js:147-154 | on an A weekday at 13:00 with only a period-"01" row, that row is shown as period "1" with no lunch |
| ResolverProperties.ScenarioMidDayLunch | js/popup/schedule.js:147-218 | on an A weekday at 13:00 the period-"03" row is shown as period "3" with lunch wave D for room "905" |
| ResolverProperties.ScenarioBeforeSchool | js/popup/schedule.js:139-154 | at 07:00 on an A weekday period "1" is chosen even when its row is listed second |
| Timer.Start | modules/timer.js:11-13 | after a start the shared start instant is set |
| Timer.StartInstant | modules/timer.js:13 | (no contract of its own) a truthy resume time, else the clock; `StartInstantChoice` states its behaviour |
| Timer.Elapsed | modules/timer.js:17 | (no contract of its own) the clock minus the stored start; `ElapsedMonotone` and `FreshStartElapsed` state its behaviour |
| Timer.StartInstantChoice | modules/timer.js:13 | a non-zero resume time is kept exactly; zero and a missing resume time both start at the current clock |
| Timer.Stop | modules/timer.js:31-38 | (its ensures is the subtraction itself) `RestartOverwrites` states that a stop after any sequence of starts returns the clock minus the latest start instant, and `FreshStartElapsed` that a fresh start at c0 measures c - c0 |
| Timer.ElapsedMonotone | modules/timer.js:16-21 | ticks are recomputed from the stored start, so they advance exactly as the clock does |
| Timer.FreshStartElapsed | modules/timer.js:13-17 | a fresh start at c0 reports exactly c - c0, which is never negative for a later clock |
| Timer.RestartOverwrites | modules/timer.js:9-13 | a second start replaces the first; a stop measures from the latest start only |
| Timer.TruncRem | modules/timer.js:44 | JavaScript's remainder has the dividend's sign, is smaller than the divisor in size, and satisfies a = b * trunc(a / b) + r |
| Timer.Parts | modules/timer.js:41-44 | for a non-negative duration the seconds are 0..59, the minutes are non-negative, and together they make the whole seconds elapsed |
| Timer.FormatDuration | modules/timer.js:41-46 | (no contract of its own) the "{m}m {s}s" text; `FormatDurationRoundTrip` shows it reads back as the minutes and seconds of `Parts` |
| Timer.FormatDurationRoundTrip | modules/timer.js:41-46 | parsing the rendered "{m}m {s}s" text gives back exactly the minutes and seconds, for every duration |
| Timer.FormatDurationWholeSeconds | modules/timer.js:41-46 | for a non-negative duration the printed text stands for exactly the whole seconds elapsed, with seconds below 60 |
| Timer.FormatDurationExamples | modules/timer.js:41-46 | 59999 ms renders as 0 m 59 s and 60000 ms as 1 m 0 s |
| Timer.NegativeDurationMixesRounding | modules/timer.js:42-44 | -1000 ms renders as -1 m -1 s, which does not stand for the floored -1 s |
| Decimal.NatToDecimal | modules/timer.js:45 | the numeral is non-empty, all digits, has no leading zero unless it is "0", and reads back as the number |
| Decimal.IntToString | modules/timer.js:45 | every printed integer is parsed back to itself |
| Checkout.FirstGuard | js/popup/checkout.js:35-67 | (no contract of its own) the three guards in order; `ClickServedIffInWindow`, `GuardOrder` and `NoGuardInWindow` state its behaviour |
| Checkout.NoGuardInWindow | js/popup/checkout.js:45-67 | on a weekday from 8:45 up to 16:20 no guard rejects the click |
| Checkout.ClickServedIffInWindow | js/popup/checkout.js:34-67 | a click gets past the guards exactly on a weekday from 8:45 inclusive to 16:20 exclusive |
| Checkout.GuardOrder | js/popup/checkout.js:34-67 | a weekend is reported as such at any hour; on weekdays, 16:20 and later is after hours and before 8:45 is before hours |
| Checkout.ClickStatusLines | js/popup/checkout.js:34-67 | a weekend click shows "Checkouts are not available on weekends.", a weekday click from 16:20 on "School day is over - no checkouts needed." and one before 8:45 "School day hasn't started yet." |
| Checkout.Click | js/popup/checkout.js:29-128 | a rejected click leaves the state as it was and shows the first guard's status; a check-out sets the flag; a failed check-out leaves it clear; a check-in clears it |
| Checkout.RejectedClickChangesNothing | js/popup/checkout.js:35-67 | a rejected click changes no state and happens only outside the window |
| Checkout.CheckoutAndRollback | js/popup/checkout.js:69-100 | a served click while checked in checks out and starts the timer at the click; if logging throws, the flag is rolled back and the failure reported |
| Checkout.CheckinIsNotRolledBack | js/popup/checkout.js:102-127 | a served click while checked out always checks in with the stopped duration, even when logging the check-in throws |
| Checkout.MissingHandlerChangesNothing | js/popup/checkout.js:69-107 | when the handler to call is not a function, the click changes nothing |
| Checkout.WfPreserved | js/popup/checkout.js:12-153 | the popup opens checked in with no stopper, which is well formed, and clicks and restores keep a running check-out paired with a timer stopper and a start, so stopping never runs on a null stopper |
| Checkout.CheckoutThenCheckin | js/popup/checkout.js:69-121 | checking out at c1 and back in at c2 reports c2 - c1 and shows it in the status line |
| Checkout.CheckinStatus | js/popup/checkout.js:117 | (no contract of its own) "You've been out for {duration}."; `CheckoutThenCheckin` and `CheckinIsNotRolledBack` state which duration it shows |
| Checkout.Restore | js/popup/checkout.js:131-153 | a restore sets the checked-out flag only on a weekday |
| Checkout.RestoreResumesStoredStart | js/popup/checkout.js:131-153 | from checked in, a restore checks out exactly when a check-out was saved with a truthy start and today is a weekday, and the timer then measures from the saved start; otherwise nothing changes |
| Checkout.LastSlotEndIsAfterHours | js/popup/checkout.js:45-56 | 16:20 is still inside the timetable's last slot but a click then is already rejected as after hours |
| Api.FormatName | js/popup/api.js:9-16 | a falsy or non-string name comes back unchanged, and so does a string with other than exactly one comma |
| Api.FormatNameSwaps | api.js:8-19 | "Last,First" with one comma becomes the trimmed first part, a space and the trimmed last part |
| Api.FormatNameRemovesTheComma | js/popup/api.js:9-16 | a name the function changes had exactly one comma, and the result has none |
| Api.FormatNameIdempotent | api.js:8-19 | formatting a formatted name changes nothing |
| Api.StudentName | api.js:41 | a falsy reply name becomes the empty string; any other is formatted; `StudentNameShown` relates it to the swap |
| Api.StudentNameShown | api.js:41 | a missing or empty name is shown as "", a one-comma "Last,First" name as the trimmed "First Last", and the shown name is a fixed point of `formatName` |
| Api.ReportUrl | js/popup/api.js:130 | (no contract of its own) the template literal; `ReportUrlIsQueryString` and `ReportUrlParams` state what it holds |
| Api.ReportUrlIsQueryString | js/popup/api.js:128-130 | the concatenated URL is the report endpoint, "?" and the query string of user, pass, link and, when truthy, student_id |
| Api.ReportUrlParams | js/popup/api.js:128-130 | reading the URL's query back gives user, pass and link in that order, and student_id exactly when the id is truthy |
| Api.ReportParamsSafe | js/popup/api.js:130 | every key and encoded value of the request is free of '&' and '=' |
| Api.ReadQueryString | js/popup/api.js:130 | a query string built from safe parameters reads back as those parameters |
| Api.ReadFieldOfField | js/popup/api.js:130 | a safe "key=value" field reads back as its parameter |
| JsText.Trim | js/popup/api.js:13 | the result of `trim` starts and ends with a non-space character, or is empty |
| JsText.TrimPadded | js/popup/api.js:13 | the input is the trimmed result padded with white space on both sides |
| JsText.TrimOfPadded | js/popup/api.js:13 | trimming a tight string padded with white space gives back exactly that string |
| JsText.TrimIdempotent | js/popup/api.js:13 | trimming twice is trimming once |
| JsText.TrimKeeps | js/popup/api.js:13 | trimming introduces no character that was not in the input |
| JsText.SplitCount | js/popup/api.js:11 | a split has one more piece than the string has separators |
| JsText.SplitPiecesFree | js/popup/api.js:11 | no piece of a split holds the separator |
| JsText.SplitJoin | js/popup/api.js:11 | joining the pieces with the separator gives back the string |
| JsText.Split | js/popup/api.js:11 | `name.split(",")` for a one-character separator: at least one piece; `SplitCount`, `SplitPiecesFree` and `SplitJoin` state the pieces exactly, and api.js:11 does the same |
| JsText.StartsWith | js/popup/schedule.js:175-192 | (no contract of its own) `s.startsWith(p)`; `LunchWaveBands` and `LunchWaveExamples` state the band chain built from it |

## Left out

- Fetching is left out. This covers `fetch`, the `res.json()` parse and the HTTP replies. The resolver takes the parsed report, or a failure in its place.
- The browser is left out: `chrome.storage`, the DOM, button text, colours, the disabled flag, `alert`, debug logging and `setInterval`. Stored values and clocks are parameters.
- Time zones are left out, including `new Date("2025-04-23")` and `toLocaleDateString()`. Days are local day numbers and the anchor is taken as local 2025-04-23. West of UTC, which includes the school's own users, that string parses to the previous local evening, so the count starts a day earlier and every day type from the anchor on is flipped; `DayTypeOn` does not model that, and `AnchorOneDayEarlierFlips` states the flip. The shown date is kept as a day number.
- `encodeURIComponent` is left out; any `Encoder` whose output never holds '&' or '=' takes its place. `ReportUrlParams` therefore shows how the encoded values are placed in the URL, not what the encoding does.
- Api.ReportUrlParams: the reader reads a value up to the next '=', so it is stated only for encoders that escape '='. The real encoder does.
- Concurrency is left out. A click runs to completion, and a second click or a restore landing during the awaited `onCheckout`/`onCheckin` is not modelled.
- `setupCheckout` returning early when the button or status element is missing is left out. No handler is installed in that case.
- Timer ticks are not modelled one by one; `Elapsed` gives the value every tick reports.
- Durations are whole milliseconds. Non-integer and non-finite inputs to `formatDuration` are not modelled.
- Strings are sequences of characters, not UTF-16 code units.
- Report rows are arrays of values. A row that is itself not an array is not modelled.
- `getCurrentClassInfo`'s fallback when building `now` throws is left out, because the current time is a parameter. So is the `customNow || new Date()` choice.
- Checkout.Restore: the stored start time is an integer or absent. A truthy non-number start is not modelled.
- The other copies are left out. `formatName` in api.js and js/popup/api.js is the same, so one definition models both. The report URL is built the same way in js/popup/schedule.js. The copies in popup.js and in the student-switching calls are not part of this model.
- The remaining API calls are left out: student list, current student, switching, logging a check-out or check-in, and authentication. They are requests with no logic of their own.

=== FILE: api.dfy ===
/**
 The pure parts of the API layer: `formatName`, which turns "Last, First"
 into "First Last", the `{name: ...}` wrapping of the student-info reply, and
 the query string of the schedule-report request. The same `formatName` is
 defined twice in the repository, identically; one definition models both.

 `encodeURIComponent` is a parameter: any encoder whose output never holds
 the query delimiters '&' and '=', as the real one guarantees.
 */
module Api {
  import opened Options
  import opened JsValue
  import opened JsText

  // ---------------------------------------------------------------------------
  // formatName

  /** `formatName(name)`: a falsy or non-string value comes back as it is; a
      string with exactly one comma is swapped around it, both halves trimmed;
      any other string comes back as it is. */
  function FormatName(name: Value): (r: Value)
    ensures !name.Truthy() || !name.Str? ==> r == name
    ensures name.Str? && multiset(name.s)[','] != 1 ==> r == name
  {
    if !name.Truthy() || !name.Str? then name
    else
      var parts := Split(name.s, ',');
      SplitParts(name.s, ',');
      if |parts| == 2 then Str(Trim(parts[1]) + " " + Trim(parts[0]))
      else name
  }

  /** "Last, First" becomes "First Last". */
  lemma FormatNameSwaps(last: string, first: string)
    requires ',' !in last && ',' !in first
    ensures FormatName(Str(last + "," + first)) == Str(Trim(first) + " " + Trim(last))
  {
    var s := last + "," + first;
    assert s == last + [','] + first;
    SplitAtFirst(last, ',', first);
    SplitNone(first, ',');
    var parts := Split(s, ',');
    assert parts == [last, first];
    assert |parts| == 2 && parts[0] == last && parts[1] == first;
    assert Str(s).Truthy() by { assert s[|last|] == ','; }
    assert Str(s).Str?;
  }

  /** Two comma-free words joined by a space hold no comma. */
  lemma NoCommaInJoined(a: string, b: string)
    requires ',' !in a && ',' !in b
    ensures ',' !in a + " " + b
  {
    var j := a + " " + b;
    forall k | 0 <= k < |j| ensures j[k] != ',' {
      if k < |a| { assert j[k] == a[k]; }
      else if k == |a| { assert j[k] == ' '; }
      else { assert j[k] == b[k - |a| - 1]; }
    }
  }

  /** A string the function does change had exactly one comma, and the
      result has none. */
  lemma FormatNameRemovesTheComma(name: Value)
    ensures FormatName(name) != name ==> name.Str? && multiset(name.s)[','] == 1
    ensures FormatName(name) != name ==> FormatName(name).Str? && ',' !in FormatName(name).s
  {
    if FormatName(name) == name {
      return;
    }
    var parts := Split(name.s, ',');
    SplitParts(name.s, ',');
    assert |parts| == 2;
    assert FormatName(name) == Str(Trim(parts[1]) + " " + Trim(parts[0]));
    assert ',' !in parts[0] && ',' !in parts[1];
    TrimKeeps(parts[0], ',');
    TrimKeeps(parts[1], ',');
    NoCommaInJoined(Trim(parts[1]), Trim(parts[0]));
  }

  /** Formatting twice is formatting once. */
  lemma FormatNameIdempotent(name: Value)
    ensures FormatName(FormatName(name)) == FormatName(name)
  {
    if FormatName(name) != name {
      FormatNameRemovesTheComma(name);
      var r := FormatName(name);
      assert multiset(r.s)[','] == 0;
    }
  }

  /** `{ name: formatName(data?.name || "") }` from `getStudentName`. */
  function StudentName(name: Value): (r: Value)
    ensures !name.Truthy() ==> r == Str("")
    ensures name.Truthy() ==> r == FormatName(name)
  {
    FormatName(name.Or(Str("")))
  }

  /** What the popup shows as the student's name: a missing or empty name
      is the empty string, a "Last, First" name is swapped to "First Last",
      and the result is always already formatted. */
  lemma StudentNameShown(name: Value, last: string, first: string)
    ensures name == Undefined || name == Null || name == Str("") ==> StudentName(name) == Str("")
    ensures ',' !in last && ',' !in first ==>
      StudentName(Str(last + "," + first)) == Str(Trim(first) + " " + Trim(last))
    ensures FormatName(StudentName(name)) == StudentName(name)
  {
    if ',' !in last && ',' !in first {
      FormatNameSwaps(last, first);
      var s := last + "," + first;
      assert Str(s).Truthy() by { assert s[|last|] == ','; }
    }
    FormatNameIdempotent(name.Or(Str("")));
  }

  // ---------------------------------------------------------------------------
  // The schedule-report request

  const ApiBase := "https://hacapi-hh.onrender.com"
  const ReportPath := "/api/getReport"
  const HacLink := "https://accesscenter.roundrockisd.org/"

  /** Text that can stand as a query key or value without being misread. */
  predicate UrlSafe(s: string) {
    '&' !in s && '=' !in s
  }

  /** An `encodeURIComponent`: it escapes '&' and '=' among others. */
  type Encoder = f: string -> string | forall s :: UrlSafe(f(s))
    witness (s: string) => ""

  /** The URL `fetchScheduleReport` requests. Each argument is first turned
      into text as `String(v)` would, as `encodeURIComponent` does. */
  function ReportUrl(user: Value, pass: Value, studentId: Value, encode: Encoder): string {
    ApiBase + ReportPath + "?user=" + encode(user.ToStr()) + "&pass=" + encode(pass.ToStr())
      + "&link=" + encode(HacLink)
      + (if studentId.Truthy() then "&student_id=" + encode(studentId.ToStr()) else "")
  }

  datatype Param = Param(key: string, value: string)

  /** "key=value". */
  function Field(p: Param): string {
    p.key + "=" + p.value
  }

  /** Fields joined with '&'. */
  function QueryString(ps: seq<Param>): string
    requires |ps| >= 1
  {
    if |ps| == 1 then Field(ps[0]) else Field(ps[0]) + "&" + QueryString(ps[1..])
  }

  /** A reader for query strings, independent of how they were built: split
      at '&', then each field at its first '='. */
  function ReadField(f: string): Param {
    var kv := Split(f, '=');
    if |kv| >= 2 then Param(kv[0], kv[1]) else Param(kv[0], "")
  }

  function ReadFields(fields: seq<string>): (ps: seq<Param>)
    ensures |ps| == |fields|
  {
    if fields == [] then [] else [ReadField(fields[0])] + ReadFields(fields[1..])
  }

  function ReadQuery(q: string): seq<Param> {
    ReadFields(Split(q, '&'))
  }

  /** The query of a URL on the report endpoint, if it is one. */
  function QueryOf(url: string): Option<string> {
    var prefix := ApiBase + ReportPath + "?";
    if |prefix| <= |url| && url[..|prefix|] == prefix then Some(url[|prefix|..]) else None
  }

  predicate ParamSafe(p: Param) {
    UrlSafe(p.key) && UrlSafe(p.value)
  }

  /** A field built from safe text has no '&' in it. */
  lemma FieldHasNoAmpersand(p: Param)
    requires ParamSafe(p)
    ensures '&' !in Field(p)
  {
    var f := Field(p);
    forall k | 0 <= k < |f| ensures f[k] != '&' {
      if k < |p.key| { assert f[k] == p.key[k]; }
      else if k > |p.key| { assert f[k] == p.value[k - |p.key| - 1]; }
      else { assert f[k] == '='; }
    }
  }

  /** A safe field reads back as the parameter it was written from. */
  lemma ReadFieldOfField(p: Param)
    requires ParamSafe(p)
    ensures ReadField(Field(p)) == p
  {
    assert Field(p) == p.key + ['='] + p.value;
    SplitAtFirst(p.key, '=', p.value);
    SplitNone(p.value, '=');
  }

  /** A safe field in front of '&' reads off as the first parameter. */
  lemma ReadQueryCons(p: Param, rest: string)
    requires ParamSafe(p)
    ensures ReadQuery(Field(p) + "&" + rest) == [p] + ReadQuery(rest)
  {
    ReadFieldOfField(p);
    FieldHasNoAmpersand(p);
    assert Field(p) + "&" + rest == Field(p) + ['&'] + rest;
    SplitAtFirst(Field(p), '&', rest);
    var fields := [Field(p)] + Split(rest, '&');
    assert fields[1..] == Split(rest, '&');
  }

  /** A lone safe field reads off as its parameter. */
  lemma ReadQuerySingle(p: Param)
    requires ParamSafe(p)
    ensures ReadQuery(Field(p)) == [p]
  {
    ReadFieldOfField(p);
    FieldHasNoAmpersand(p);
    SplitNone(Field(p), '&');
  }

  /** Reading a query string written from safe parameters gives them back,
      in order. */
  lemma {:induction false} ReadQueryString(ps: seq<Param>)
    requires |ps| >= 1
    requires forall i | 0 <= i < |ps| :: ParamSafe(ps[i])
    ensures ReadQuery(QueryString(ps)) == ps
    decreases |ps|
  {
    if |ps| == 1 {
      ReadQuerySingle(ps[0]);
    } else {
      var rest := ps[1..];
      assert forall i | 0 <= i < |rest| :: ParamSafe(rest[i]) by {
        forall i | 0 <= i < |rest| ensures ParamSafe(rest[i]) { assert rest[i] == ps[i + 1]; }
      }
      calc {
        ReadQuery(QueryString(ps));
        ReadQuery(Field(ps[0]) + "&" + QueryString(rest));
        { ReadQueryCons(ps[0], QueryString(rest)); }
        [ps[0]] + ReadQuery(QueryString(rest));
        { ReadQueryString(rest); }
        [ps[0]] + rest;
        ps;
      }
    }
  }

  /** The parameters of the report request: user, pass and link, then
      student_id only when a truthy id is given. */
  function ReportParams(user: Value, pass: Value, studentId: Value, encode: Encoder): seq<Param> {
    [Param("user", encode(user.ToStr())), Param("pass", encode(pass.ToStr())), Param("link", encode(HacLink))]
      + (if studentId.Truthy() then [Param("student_id", encode(studentId.ToStr()))] else [])
  }

  /** Appending "&key=" and a value appends '&' and the field. */
  lemma AppendField(x: string, key: string, value: string)
    ensures x + ("&" + key + "=") + value == x + "&" + Field(Param(key, value))
  {
    var lhs, rhs := x + ("&" + key + "=") + value, x + "&" + Field(Param(key, value));
    assert |lhs| == |rhs|;
    forall k | 0 <= k < |lhs| ensures lhs[k] == rhs[k] {
      if k < |x| + 1 + |key| + 1 { } else { }
    }
  }

  /** Regrouping `a & b & c` to the right. */
  lemma NestRight(a: string, b: string, c: string)
    ensures a + "&" + b + "&" + c == a + "&" + (b + "&" + c)
  {
  }

  /** The literal pieces of the URL template, taken apart. */
  lemma PieceLiterals()
    ensures "?user=" == "?" + "user" + "="
    ensures "&pass=" == "&" + "pass" + "="
    ensures "&link=" == "&" + "link" + "="
    ensures "&student_id=" == "&" + "student_id" + "="
  {
  }

  /** The template's first three parameters, regrouped as fields. */
  lemma TemplateThree(e: string, u: string, p: string, l: string)
    ensures e + "?user=" + u + "&pass=" + p + "&link=" + l
      == e + "?" + (Field(Param("user", u)) + "&" + (Field(Param("pass", p)) + "&" + Field(Param("link", l))))
  {
    var f1, f2, f3 := Field(Param("user", u)), Field(Param("pass", p)), Field(Param("link", l));
    PieceLiterals();
    var x1 := e + "?user=" + u;
    assert x1 == e + "?" + f1;
    AppendField(x1, "pass", p);
    AppendField(x1 + "&pass=" + p, "link", l);
    NestRight(e + "?" + f1, f2, f3);
    NestRight(e + "?", f1, f2 + "&" + f3);
  }

  /** With the optional student id the regrouping nests one level deeper. */
  lemma TemplateFour(e: string, u: string, p: string, l: string, sid: string)
    ensures e + "?user=" + u + "&pass=" + p + "&link=" + l + ("&student_id=" + sid)
      == e + "?" + (Field(Param("user", u)) + "&" + (Field(Param("pass", p)) + "&"
           + (Field(Param("link", l)) + "&" + Field(Param("student_id", sid)))))
  {
    var f1, f2, f3, f4 := Field(Param("user", u)), Field(Param("pass", p)), Field(Param("link", l)),
      Field(Param("student_id", sid));
    PieceLiterals();
    var x1 := e + "?user=" + u;
    assert x1 == e + "?" + f1;
    AppendField(x1, "pass", p);
    AppendField(x1 + "&pass=" + p, "link", l);
    var x3 := x1 + "&pass=" + p + "&link=" + l;
    assert x3 + ("&student_id=" + sid) == x3 + "&student_id=" + sid;
    AppendField(x3, "student_id", sid);
    NestRight(e + "?" + f1 + "&" + f2, f3, f4);
    NestRight(e + "?" + f1, f2, f3 + "&" + f4);
    NestRight(e + "?", f1, f2 + "&" + (f3 + "&" + f4));
  }

  lemma QueryStringOfThree(a: Param, b: Param, c: Param)
    ensures QueryString([a, b, c]) == Field(a) + "&" + (Field(b) + "&" + Field(c))
  {
    assert [a, b, c][1..] == [b, c];
    assert [b, c][1..] == [c];
    assert QueryString([c]) == Field(c);
    assert QueryString([b, c]) == Field(b) + "&" + QueryString([c]);
    assert QueryString([a, b, c]) == Field(a) + "&" + QueryString([b, c]);
  }

  lemma QueryStringOfFour(a: Param, b: Param, c: Param, d: Param)
    ensures QueryString([a, b, c, d]) == Field(a) + "&" + (Field(b) + "&" + (Field(c) + "&" + Field(d)))
  {
    assert [a, b, c, d][1..] == [b, c, d];
    QueryStringOfThree(b, c, d);
  }

  lemma ReportUrlWithId(user: Value, pass: Value, studentId: Value, encode: Encoder)
    requires studentId.Truthy()
    ensures ReportUrl(user, pass, studentId, encode)
      == ApiBase + ReportPath + "?" + QueryString(ReportParams(user, pass, studentId, encode))
  {
    var u, p, l, sid := encode(user.ToStr()), encode(pass.ToStr()), encode(HacLink), encode(studentId.ToStr());
    var a, b, c, d := Param("user", u), Param("pass", p), Param("link", l), Param("student_id", sid);
    assert ReportParams(user, pass, studentId, encode) == [a, b, c, d];
    TemplateFour(ApiBase + ReportPath, u, p, l, sid);
    QueryStringOfFour(a, b, c, d);
  }

  lemma ReportUrlWithoutId(user: Value, pass: Value, studentId: Value, encode: Encoder)
    requires !studentId.Truthy()
    ensures ReportUrl(user, pass, studentId, encode)
      == ApiBase + ReportPath + "?" + QueryString(ReportParams(user, pass, studentId, encode))
  {
    var u, p, l := encode(user.ToStr()), encode(pass.ToStr()), encode(HacLink);
    var a, b, c := Param("user", u), Param("pass", p), Param("link", l);
    assert ReportParams(user, pass, studentId, encode) == [a, b, c];
    assert ReportUrl(user, pass, studentId, encode) == ApiBase + ReportPath + "?user=" + u + "&pass=" + p + "&link=" + l;
    TemplateThree(ApiBase + ReportPath, u, p, l);
    QueryStringOfThree(a, b, c);
  }

  /** The concatenated URL is the endpoint followed by those parameters. */
  lemma ReportUrlIsQueryString(user: Value, pass: Value, studentId: Value, encode: Encoder)
    ensures ReportUrl(user, pass, studentId, encode)
      == ApiBase + ReportPath + "?" + QueryString(ReportParams(user, pass, studentId, encode))
  {
    if studentId.Truthy() {
      ReportUrlWithId(user, pass, studentId, encode);
    } else {
      ReportUrlWithoutId(user, pass, studentId, encode);
    }
  }

  /** Reading the request's query gives user, pass and link in that order,
      and student_id exactly when the id is truthy. */
  lemma ReportUrlParams(user: Value, pass: Value, studentId: Value, encode: Encoder)
    ensures var q := QueryOf(ReportUrl(user, pass, studentId, encode));
      && q.Some?
      && ReadQuery(q.value) == ReportParams(user, pass, studentId, encode)
  {
    var ps := ReportParams(user, pass, studentId, encode);
    ReportUrlIsQueryString(user, pass, studentId, encode);
    QueryOfEndpoint(QueryString(ps));
    ReportParamsSafe(user, pass, studentId, encode);
    ReadQueryString(ps);
  }

  /** The endpoint prefix is recognised and stripped. */
  lemma QueryOfEndpoint(q: string)
    ensures QueryOf(ApiBase + ReportPath + "?" + q) == Some(q)
  {
    var prefix := ApiBase + ReportPath + "?";
    var url := prefix + q;
    assert url[..|prefix|] == prefix;
    assert url[|prefix|..] == q;
  }

  /** The four keys hold no delimiter. */
  lemma KeysSafe()
    ensures UrlSafe("user") && UrlSafe("pass") && UrlSafe("link") && UrlSafe("student_id")
  {
  }

  lemma SafeList(front: seq<Param>, back: seq<Param>)
    requires forall i | 0 <= i < |front| :: ParamSafe(front[i])
    requires forall i | 0 <= i < |back| :: ParamSafe(back[i])
    ensures forall i | 0 <= i < |front + back| :: ParamSafe((front + back)[i])
  {
    var all := front + back;
    forall i | 0 <= i < |all| ensures ParamSafe(all[i]) {
      if i < |front| { assert all[i] == front[i]; } else { assert all[i] == back[i - |front|]; }
    }
  }

  /** The three fields every request carries are safe. */
  lemma CommonParamsSafe(user: Value, pass: Value, encode: Encoder)
    ensures var ps := [Param("user", encode(user.ToStr())), Param("pass", encode(pass.ToStr())),
                       Param("link", encode(HacLink))];
      forall i | 0 <= i < |ps| :: ParamSafe(ps[i])
  {
    KeysSafe();
    assert UrlSafe(encode(user.ToStr())) && UrlSafe(encode(pass.ToStr())) && UrlSafe(encode(HacLink));
  }

  /** The optional student-id field is safe. */
  lemma StudentParamSafe(studentId: Value, encode: Encoder)
    ensures var ps := if studentId.Truthy() then [Param("student_id", encode(studentId.ToStr()))] else [];
      forall i | 0 <= i < |ps| :: ParamSafe(ps[i])
  {
    KeysSafe();
    assert UrlSafe(encode(studentId.ToStr()));
  }

  /** Every key and encoded value of the report request is safe. */
  lemma ReportParamsSafe(user: Value, pass: Value, studentId: Value, encode: Encoder)
    ensures |ReportParams(user, pass, studentId, encode)| >= 1
    ensures forall i | 0 <= i < |ReportParams(user, pass, studentId, encode)| ::
      ParamSafe(ReportParams(user, pass, studentId, encode)[i])
  {
    CommonParamsSafe(user, pass, encode);
    StudentParamSafe(studentId, encode);
    SafeList([Param("user", encode(user.ToStr())), Param("pass", encode(pass.ToStr())),
              Param("link", encode(HacLink))],
             if studentId.Truthy() then [Param("student_id", encode(studentId.ToStr()))] else []);
  }

}

=== FILE: calendar.dfy ===
/**
 Dates and times as the schedule and checkout code read them from a local
 `Date`: a day index with a known weekday, and the minute of that day.
 Day-type (A/B) rotation counts weekdays from a fixed anchor date.
 */
module Calendar {

  /** Minutes since local midnight, `getHours() * 60 + getMinutes()`. */
  type MinuteOfDay = m: int | 0 <= m < 1440

  /** A local wall-clock reading: `day` counts days since 1970-01-01. */
  datatype Instant = Instant(day: int, minute: MinuteOfDay) {
    function Hour(): int { minute / 60 }
    function MinuteOfHour(): int { minute % 60 }
  }

  function Minutes(hour: int, minute: int): int {
    hour * 60 + minute
  }

  /** `getDay()`: 0 is Sunday and 6 is Saturday; 1970-01-01 was a Thursday. */
  function Weekday(day: int): (w: int)
    ensures 0 <= w < 7
  {
    (day + 4) % 7
  }

  predicate IsWeekend(day: int) {
    Weekday(day) == 0 || Weekday(day) == 6
  }

  /** 2025-04-23, a Wednesday: the date the code anchors the rotation to. */
  const AnchorDay: int := 20201

  /** 2025-04-16, a Wednesday: the date the code's comment names as an A day. */
  const CommentedAnchorDay: int := 20194

  /** Reference definition: the weekdays in the inclusive range [start, end],
      counted from the end backwards. */
  function SchoolDays(start: int, end: int): nat
    decreases end - start
  {
    if end < start then 0
    else SchoolDays(start, end - 1) + (if IsWeekend(end) then 0 else 1)
  }

  ghost function WeekdaysIn(start: int, end: int): set<int> {
    set d | start <= d <= end && !IsWeekend(d)
  }

  /** `countSchoolDays`: walks the days from `start` to `end` inclusive and
      counts those that are not Saturday or Sunday. */
  method CountSchoolDays(start: int, end: int) returns (count: nat)
    ensures count == |WeekdaysIn(start, end)|
    ensures end < start ==> count == 0
    ensures count <= if end < start then 0 else end - start + 1
  {
    count := 0;
    var current := start;
    while current <= end
      invariant start <= current
      invariant end < start ==> current == start
      invariant end >= start ==> current <= end + 1
      invariant count == SchoolDays(start, current - 1)
      invariant count <= current - start
      decreases end - current
    {
      if !IsWeekend(current) {
        count := count + 1;
      }
      current := current + 1;
    }
    SchoolDaysCountsWeekdays(start, end);
  }

  /** The recursive count is the size of the set of weekdays in the range. */
  lemma {:induction false} SchoolDaysCountsWeekdays(start: int, end: int)
    ensures SchoolDays(start, end) == |WeekdaysIn(start, end)|
    decreases end - start
  {
    if end < start {
      assert WeekdaysIn(start, end) == {};
    } else {
      SchoolDaysCountsWeekdays(start, end - 1);
      if IsWeekend(end) {
        assert WeekdaysIn(start, end) == WeekdaysIn(start, end - 1);
      } else {
        assert WeekdaysIn(start, end) == WeekdaysIn(start, end - 1) + {end};
      }
    }
  }

  /** Counting over adjacent ranges adds up. */
  lemma {:induction false} SchoolDaysSplit(start: int, mid: int, end: int)
    requires start - 1 <= mid <= end
    ensures SchoolDays(start, end) == SchoolDays(start, mid) + SchoolDays(mid + 1, end)
    decreases end - mid
  {
    if mid < end {
      SchoolDaysSplit(start, mid, end - 1);
    }
  }

  /** The weekday after `day` is the next one round the week. */
  lemma WeekdayNext(day: int)
    ensures Weekday(day + 1) == (Weekday(day) + 1) % 7
  {
    var q, r := (day + 4) / 7, (day + 4) % 7;
    assert day + 4 == 7 * q + r;
    if r < 6 {
      assert day + 5 == 7 * q + (r + 1);
    } else {
      assert day + 5 == 7 * (q + 1);
    }
  }

  /** The weekday of `k + n`, for `n` up to six, is `n` steps on from that of `k`. */
  lemma {:induction false} WeekdayAhead(k: int, n: nat)
    requires n <= 6
    ensures Weekday(k + n) == (Weekday(k) + n) % 7
    decreases n
  {
    if n > 0 {
      WeekdayAhead(k, n - 1);
      WeekdayNext(k + n - 1);
    }
  }

  /** Exactly two of seven consecutive days fall on a weekend. */
  lemma TwoWeekendDays(k: int)
    ensures (if IsWeekend(k) then 1 else 0) + (if IsWeekend(k + 1) then 1 else 0)
      + (if IsWeekend(k + 2) then 1 else 0) + (if IsWeekend(k + 3) then 1 else 0)
      + (if IsWeekend(k + 4) then 1 else 0) + (if IsWeekend(k + 5) then 1 else 0)
      + (if IsWeekend(k + 6) then 1 else 0) == 2
  {
    WeekdayAhead(k, 1);
    WeekdayAhead(k, 2);
    WeekdayAhead(k, 3);
    WeekdayAhead(k, 4);
    WeekdayAhead(k, 5);
    WeekdayAhead(k, 6);
    var w := Weekday(k);
    if w == 0 { } else if w == 1 { } else if w == 2 { } else if w == 3 { }
    else if w == 4 { } else if w == 5 { } else { assert w == 6; }
  }

  /** Seven consecutive days, whatever the first, hold five weekdays. */
  lemma SevenDaysFiveWeekdays(k: int)
    ensures SchoolDays(k, k + 6) == 5
  {
    TwoWeekendDays(k);
    assert SchoolDays(k, k + 1) == SchoolDays(k, k) + (if IsWeekend(k + 1) then 0 else 1);
    assert SchoolDays(k, k + 2) == SchoolDays(k, k + 1) + (if IsWeekend(k + 2) then 0 else 1);
    assert SchoolDays(k, k + 3) == SchoolDays(k, k + 2) + (if IsWeekend(k + 3) then 0 else 1);
    assert SchoolDays(k, k + 4) == SchoolDays(k, k + 3) + (if IsWeekend(k + 4) then 0 else 1);
    assert SchoolDays(k, k + 5) == SchoolDays(k, k + 4) + (if IsWeekend(k + 5) then 0 else 1);
    assert SchoolDays(k, k + 6) == SchoolDays(k, k + 5) + (if IsWeekend(k + 6) then 0 else 1);
  }

  /** Every full week contributes exactly five school days. */
  lemma SchoolDaysWeek(start: int, end: int)
    requires start - 1 <= end
    ensures SchoolDays(start, end + 7) == SchoolDays(start, end) + 5
  {
    SchoolDaysSplit(start, end, end + 7);
    SevenDaysFiveWeekdays(end + 1);
  }

  datatype DayType = A | B

  /** The A/B rotation as written: the weekday count includes both the
      anchor and today, and an even count is an A day. */
  function DayTypeOn(day: int): DayType {
    if SchoolDays(AnchorDay, day) % 2 == 0 then A else B
  }

  /** Weekends never advance the rotation; each weekday from the anchor on
      flips it. */
  lemma DayTypeAlternates(day: int)
    requires day >= AnchorDay - 1
    ensures IsWeekend(day + 1) ==> DayTypeOn(day + 1) == DayTypeOn(day)
    ensures !IsWeekend(day + 1) ==> DayTypeOn(day + 1) != DayTypeOn(day)
  {
  }

  /** Because both endpoints count, the anchor date itself is a B day. */
  lemma AnchorIsBDay()
    ensures DayTypeOn(AnchorDay) == B
  {
    assert SchoolDays(AnchorDay, AnchorDay) == 1;
  }

  /** Every date before the anchor counts zero school days, so is an A day. */
  lemma BeforeAnchorIsADay(day: int)
    requires day < AnchorDay
    ensures DayTypeOn(day) == A
  {
  }

  /** The same weekday one week later has the opposite day type (five
      school days pass). */
  lemma DayTypeWeekLater(day: int)
    requires day >= AnchorDay - 1
    ensures DayTypeOn(day + 7) != DayTypeOn(day)
  {
    SchoolDaysWeek(AnchorDay, day);
  }

  /** Reading the comment as "2025-04-16 is an A day and every later school
      day flips the type", the code agrees with it on and after the anchor:
      the four school days between the two dates keep the parity. */
  lemma DayTypeMatchesCommentFromAnchor(day: int)
    requires day >= AnchorDay
    ensures DayTypeOn(day) == A <==> SchoolDays(CommentedAnchorDay + 1, day) % 2 == 0
  {
    SchoolDaysSplit(CommentedAnchorDay + 1, AnchorDay - 1, day);
    assert SchoolDays(CommentedAnchorDay + 1, AnchorDay - 1) == 4 by {
      var k := CommentedAnchorDay + 1;
      assert SchoolDays(k, k + 5) == SchoolDays(k, k + 4) + 1;
      assert SchoolDays(k, k + 4) == SchoolDays(k, k + 3) + 1;
      assert SchoolDays(k, k + 3) == SchoolDays(k, k + 2);
      assert SchoolDays(k, k + 2) == SchoolDays(k, k + 1);
      assert SchoolDays(k, k + 1) == SchoolDays(k, k) + 1;
    }
  }

  /** The Thursday after the commented A day is a B day by the comment but
      an A day by the code. */
  lemma DayTypeDisagreesWithCommentBeforeAnchor()
    ensures DayTypeOn(CommentedAnchorDay + 1) == A
    ensures SchoolDays(CommentedAnchorDay + 1, CommentedAnchorDay + 1) % 2 == 1
  {
    assert !IsWeekend(CommentedAnchorDay + 1);
  }

  /** Between the two dates the code gives A every day, while the comment's
      count flips on each school day, so the two readings differ on exactly
      two days: Thursday 2025-04-17 and Monday 2025-04-21. */
  lemma CommentDisagreesOnTwoDays(day: int)
    ensures CommentedAnchorDay < day < AnchorDay ==>
      ((DayTypeOn(day) == A <==> SchoolDays(CommentedAnchorDay + 1, day) % 2 == 0)
       <==> day != CommentedAnchorDay + 1 && day != CommentedAnchorDay + 5)
  {
    if CommentedAnchorDay < day < AnchorDay {
      BeforeAnchorIsADay(day);
      var k := CommentedAnchorDay + 1;
      assert !IsWeekend(k) && !IsWeekend(k + 1) && IsWeekend(k + 2) && IsWeekend(k + 3);
      assert !IsWeekend(k + 4) && !IsWeekend(k + 5);
      assert SchoolDays(k, k) == 1;
      assert SchoolDays(k, k + 1) == 2;
      assert SchoolDays(k, k + 2) == 2;
      assert SchoolDays(k, k + 3) == 2;
      assert SchoolDays(k, k + 4) == 3;
      assert SchoolDays(k, k + 5) == 4;
    }
  }

  /** West of UTC the anchor string parses to the evening of 2025-04-22, so
      the count starts on that Tuesday: one weekday more, and every day type
      from the anchor on is the opposite of `DayTypeOn`. */
  lemma AnchorOneDayEarlierFlips(day: int)
    requires day >= AnchorDay
    ensures (SchoolDays(AnchorDay - 1, day) % 2 == 0) <==> DayTypeOn(day) == B
  {
    SchoolDaysSplit(AnchorDay - 1, AnchorDay - 1, day);
    assert SchoolDays(AnchorDay - 1, AnchorDay - 1) == 1 by {
      assert !IsWeekend(AnchorDay - 1);
    }
  }
}

=== FILE: checkout.dfy ===
/**
 The check-out button of the popup as a state machine: the weekend and
 school-hours guards every click passes first, the checked-in / checked-out
 toggle with its rollback when logging a check-out fails, and the restore of
 a check-out saved in extension storage.

 The click handler's awaited `onCheckout` / `onCheckin` calls are reduced to
 their outcome; the button's text, colour and disabled flag are not state here.
 */
module Checkout {
  import opened Options
  import opened Calendar
  import opened Timer
  import opened Schedule

  /** What `onCheckout` / `onCheckin` turn out to be when the click runs. */
  datatype Handler =
    | NotAFunction   // `typeof handler !== "function"`
    | Resolves       // the awaited call completes
    | Throws         // the awaited call rejects

  /** The closure's `checkedOut` and `timerStopper`, with the timer module's
      shared start. `hasStopper` records that `timerStopper` is no longer null. */
  datatype CheckoutState = CheckoutState(checkedOut: bool, hasStopper: bool, timer: TimerState)

  /** The closure's state when the popup opens: checked in, no stopper,
      no start recorded. */
  const Fresh := CheckoutState(false, false, Initial)

  /** Every path that sets `checkedOut` also sets `timerStopper`. */
  predicate Wf(st: CheckoutState) {
    st.checkedOut ==> st.hasStopper && st.timer.globalStart.Some?
  }

  datatype Guard = Weekend | AfterHours | BeforeHours

  const WeekendStatus := "Checkouts are not available on weekends."
  const AfterHoursStatus := "School day is over - no checkouts needed."
  const BeforeHoursStatus := "School day hasn't started yet."

  /** The status line each guard shows before returning. */
  function GuardStatus(g: Guard): string {
    match g
    case Weekend => WeekendStatus
    case AfterHours => AfterHoursStatus
    case BeforeHours => BeforeHoursStatus
  }

  /** What a click did, besides its effect on the state. */
  datatype Event =
      /** A guard fired and showed its status line. */
    | Rejected(guard: Guard, status: string)
    | NoHandler
    | CheckedOut
      /** `onCheckout` threw: the state is rolled back and the user alerted. */
    | CheckoutFailed
      /** The stopped duration, the status line showing it, and whether
          `onCheckin` logged it (a failure only raises an alert). */
    | CheckedIn(duration: int, status: string, logged: bool)
      /** `stopTimer(null)` threw before `onCheckin` ran. */
    | Crashed

  datatype Step = Step(state: CheckoutState, event: Event)

  /** The first guard that rejects a click at `now`, if any, tested in the
      handler's order: weekend, then at or after 16:20, then before 8:45. */
  function FirstGuard(now: Instant): Option<Guard> {
    var hour, minute := now.Hour(), now.MinuteOfHour();
    if IsWeekend(now.day) then Some(Weekend)
    else if hour > 16 || (hour == 16 && minute >= 20) then Some(AfterHours)
    else if hour < 8 || (hour == 8 && minute < 45) then Some(BeforeHours)
    else None
  }

  /** The window in which clicks are served, stated on its own: a weekday
      from 8:45 up to but not including 16:20. */
  predicate InCheckoutWindow(now: Instant) {
    !IsWeekend(now.day) && Minutes(8, 45) <= now.minute < Minutes(16, 20)
  }

  function CheckinStatus(duration: int): string {
    "You've been out for " + FormatDuration(duration) + "."
  }

  /** The click handler, run at wall-clock `now` and millisecond clock `clock`. */
  function Click(st: CheckoutState, now: Instant, clock: int,
                 onCheckout: Handler, onCheckin: Handler): (s: Step)
    ensures FirstGuard(now).Some? ==> s == Step(st, Rejected(FirstGuard(now).value, GuardStatus(FirstGuard(now).value)))
    ensures s.event.NoHandler? ==> s.state == st
    ensures s.event.CheckedOut? ==> !st.checkedOut && s.state.checkedOut
    ensures s.event.CheckoutFailed? ==> !st.checkedOut && !s.state.checkedOut
    ensures s.event.CheckedIn? || s.event.Crashed? ==> st.checkedOut && !s.state.checkedOut
  {
    match FirstGuard(now)
    case Some(g) => Step(st, Rejected(g, GuardStatus(g)))
    case None =>
      if !st.checkedOut then
        if onCheckout == NotAFunction then Step(st, NoHandler)
        else
          var started := CheckoutState(true, true, Start(st.timer, None, clock));
          if onCheckout == Throws then
            Step(started.(checkedOut := false), CheckoutFailed)
          else
            Step(started, CheckedOut)
      else
        if onCheckin == NotAFunction then Step(st, NoHandler)
        else if !st.hasStopper then Step(st.(checkedOut := false), Crashed)
        else
          var duration := Stop(st.timer, clock);
          Step(st.(checkedOut := false), CheckedIn(duration, CheckinStatus(duration), onCheckin == Resolves))
  }

  /** The two values read back from `chrome.storage.local`. */
  datatype Stored = Stored(checkedOut: bool, startTime: Option<int>)

  /** The storage callback: a saved check-out with a truthy start time is
      resumed from that start, unless today is a weekend. */
  function Restore(st: CheckoutState, stored: Stored, today: int, clock: int): (s: CheckoutState)
    ensures s.checkedOut ==> s.checkedOut == st.checkedOut || !IsWeekend(today)
  {
    if stored.checkedOut && stored.startTime.Some? && stored.startTime.value != 0 then
      if IsWeekend(today) then st
      else CheckoutState(true, true, Start(st.timer, stored.startTime, clock))
    else
      st
  }

  // ---------------------------------------------------------------------------
  // Properties

  /** Inside the window no guard fires. */
  lemma NoGuardInWindow(now: Instant)
    requires InCheckoutWindow(now)
    ensures FirstGuard(now) == None
  {
    var h, m := now.Hour(), now.MinuteOfHour();
    assert now.minute == h * 60 + m && 0 <= m < 60;
  }

  /** A click is served exactly inside the window: on a weekday, from 8:45
      inclusive to 16:20 exclusive. */
  lemma ClickServedIffInWindow(st: CheckoutState, now: Instant, clock: int,
                               onCheckout: Handler, onCheckin: Handler)
    ensures !Click(st, now, clock, onCheckout, onCheckin).event.Rejected? <==> InCheckoutWindow(now)
  {
    var h, m := now.Hour(), now.MinuteOfHour();
    assert now.minute == h * 60 + m && 0 <= m < 60;
  }

  /** The guards are tested in order, so a weekend evening is reported as a
      weekend and a weekday evening as after hours. */
  lemma GuardOrder(now: Instant)
    ensures IsWeekend(now.day) ==> FirstGuard(now) == Some(Weekend)
    ensures !IsWeekend(now.day) && now.minute >= Minutes(16, 20) ==> FirstGuard(now) == Some(AfterHours)
    ensures !IsWeekend(now.day) && now.minute < Minutes(8, 45) ==> FirstGuard(now) == Some(BeforeHours)
  {
    var h, m := now.Hour(), now.MinuteOfHour();
    assert now.minute == h * 60 + m && 0 <= m < 60;
  }

  /** Each rejected click shows the status line of the guard that fired:
      the weekend text on any weekend, the after-hours text on a weekday
      from 16:20 on, and the before-hours text on a weekday before 8:45. */
  lemma ClickStatusLines(st: CheckoutState, now: Instant, clock: int,
                         onCheckout: Handler, onCheckin: Handler)
    ensures var e := Click(st, now, clock, onCheckout, onCheckin).event;
      IsWeekend(now.day) ==> e == Rejected(Weekend, "Checkouts are not available on weekends.")
    ensures var e := Click(st, now, clock, onCheckout, onCheckin).event;
      !IsWeekend(now.day) && now.minute >= Minutes(16, 20) ==>
        e == Rejected(AfterHours, "School day is over - no checkouts needed.")
    ensures var e := Click(st, now, clock, onCheckout, onCheckin).event;
      !IsWeekend(now.day) && now.minute < Minutes(8, 45) ==>
        e == Rejected(BeforeHours, "School day hasn't started yet.")
  {
    GuardOrder(now);
  }

  /** A rejected click changes nothing, whatever the handlers would do. */
  lemma RejectedClickChangesNothing(st: CheckoutState, now: Instant, clock: int,
                                    onCheckout: Handler, onCheckin: Handler)
    requires Click(st, now, clock, onCheckout, onCheckin).event.Rejected?
    ensures Click(st, now, clock, onCheckout, onCheckin).state == st
    ensures !InCheckoutWindow(now)
  {
    ClickServedIffInWindow(st, now, clock, onCheckout, onCheckin);
  }

  /** A served click while checked in checks out and starts the timer at
      the click; if logging throws, the state returns to checked in. */
  lemma CheckoutAndRollback(st: CheckoutState, now: Instant, clock: int, onCheckin: Handler)
    requires InCheckoutWindow(now) && !st.checkedOut
    ensures Click(st, now, clock, Resolves, onCheckin).state.checkedOut
    ensures Stop(Click(st, now, clock, Resolves, onCheckin).state.timer, clock) == 0
    ensures Click(st, now, clock, Throws, onCheckin).state.checkedOut == st.checkedOut
    ensures Click(st, now, clock, Throws, onCheckin).event == CheckoutFailed
  {
    ClickServedIffInWindow(st, now, clock, Resolves, onCheckin);
    ClickServedIffInWindow(st, now, clock, Throws, onCheckin);
  }

  /** A served click while checked out always checks in, and a failing
      `onCheckin` is not rolled back. */
  lemma CheckinIsNotRolledBack(st: CheckoutState, now: Instant, clock: int, onCheckout: Handler)
    requires InCheckoutWindow(now) && st.checkedOut && Wf(st)
    ensures var s := Click(st, now, clock, onCheckout, Throws);
      && !s.state.checkedOut
      && s.event == CheckedIn(Stop(st.timer, clock), CheckinStatus(Stop(st.timer, clock)), false)
  {
    ClickServedIffInWindow(st, now, clock, onCheckout, Throws);
  }

  /** A missing handler leaves everything as it was. */
  lemma MissingHandlerChangesNothing(st: CheckoutState, now: Instant, clock: int, other: Handler)
    requires InCheckoutWindow(now)
    ensures !st.checkedOut ==> Click(st, now, clock, NotAFunction, other) == Step(st, NoHandler)
    ensures st.checkedOut ==> Click(st, now, clock, other, NotAFunction) == Step(st, NoHandler)
  {
    ClickServedIffInWindow(st, now, clock, NotAFunction, other);
    ClickServedIffInWindow(st, now, clock, other, NotAFunction);
  }

  /** The popup opens in a well-formed state, and clicks and restores keep a
      running check-out paired with a stopper, so the `Crashed` path is never
      taken from a reachable state. */
  lemma WfPreserved(st: CheckoutState, now: Instant, clock: int,
                    onCheckout: Handler, onCheckin: Handler, stored: Stored, today: int)
    requires Wf(st)
    ensures Wf(Fresh)
    ensures Wf(Click(st, now, clock, onCheckout, onCheckin).state)
    ensures Wf(Restore(st, stored, today, clock))
    ensures !Click(st, now, clock, onCheckout, onCheckin).event.Crashed?
  {
  }

  /** Checking out at `c1` and back in at `c2` reports `c2 - c1` and shows
      it in the status line. */
  lemma CheckoutThenCheckin(st: CheckoutState, t1: Instant, c1: int, t2: Instant, c2: int,
                            onCheckin: Handler)
    requires !st.checkedOut && InCheckoutWindow(t1) && InCheckoutWindow(t2)
    requires onCheckin != NotAFunction
    ensures var out := Click(st, t1, c1, Resolves, onCheckin).state;
      Click(out, t2, c2, Resolves, onCheckin).event
        == CheckedIn(c2 - c1, CheckinStatus(c2 - c1), onCheckin == Resolves)
  {
    NoGuardInWindow(t1);
    NoGuardInWindow(t2);
    var out := CheckoutState(true, true, Start(st.timer, None, c1));
    assert Click(st, t1, c1, Resolves, onCheckin).state == out;
    assert Stop(out.timer, c2) == c2 - c1;
  }

  /** Restoring resumes the timer from the stored start exactly when a
      check-out was saved with a truthy start and today is a weekday. */
  lemma RestoreResumesStoredStart(st: CheckoutState, stored: Stored, today: int, clock: int)
    ensures !st.checkedOut ==>
      (Restore(st, stored, today, clock).checkedOut <==>
        stored.checkedOut && stored.startTime.GetOr(0) != 0 && !IsWeekend(today))
    ensures stored.checkedOut && stored.startTime.Some? && stored.startTime.value != 0 && !IsWeekend(today) ==>
      && Restore(st, stored, today, clock).checkedOut
      && Stop(Restore(st, stored, today, clock).timer, clock) == clock - stored.startTime.value
    ensures IsWeekend(today) || !stored.checkedOut || stored.startTime.GetOr(0) == 0 ==>
      Restore(st, stored, today, clock) == st
  {
  }

  /** 16:20 still belongs to the schedule's last slot (its bounds are
      inclusive), yet a click then is already rejected as after hours. */
  lemma LastSlotEndIsAfterHours(day: int)
    requires !IsWeekend(day)
    ensures ActivePeriod(DayTypeOn(day), Minutes(16, 20)) == DaySchedule(DayTypeOn(day))[3].period
    ensures FirstGuard(Instant(day, Minutes(16, 20))) == Some(AfterHours)
  {
    ActivePeriodInSlot(DayTypeOn(day), 3, Minutes(16, 20));
    GuardOrder(Instant(day, Minutes(16, 20)));
  }
}

=== FILE: decimal.dfy ===
/**
 Decimal numerals as JavaScript prints integer-valued numbers inside a
 template literal (`${n}`), and the parser that reads them back.
 */
module Decimal {
  import opened Options

  predicate IsDigit(c: char) {
    '0' <= c <= '9'
  }

  predicate AllDigits(s: string) {
    forall i | 0 <= i < |s| :: IsDigit(s[i])
  }

  function DigitChar(d: nat): (c: char)
    requires d < 10
    ensures IsDigit(c) && c as int - '0' as int == d
  {
    ('0' as int + d) as char
  }

  /** The value of a string of decimal digits, most significant first. */
  function DigitsValue(s: string): nat
    requires AllDigits(s)
  {
    if s == [] then 0
    else DigitsValue(s[..|s| - 1]) * 10 + (s[|s| - 1] as int - '0' as int)
  }

  /** The canonical numeral of `n`: non-empty, all digits, no leading zero,
      and it reads back as `n`. */
  function NatToDecimal(n: nat): (s: string)
    ensures |s| >= 1 && AllDigits(s)
    ensures s[0] == '0' ==> n == 0
    ensures DigitsValue(s) == n
  {
    if n < 10 then [DigitChar(n)]
    else
      var s := NatToDecimal(n / 10) + [DigitChar(n % 10)];
      assert s[..|s| - 1] == NatToDecimal(n / 10);
      s
  }

  /** `${i}` for an integer-valued number: a minus sign, then the numeral. */
  function IntToString(i: int): (s: string)
    ensures ParseInt(s) == Some(i)
  {
    if i < 0 then "-" + NatToDecimal(-i) else NatToDecimal(i)
  }

  /** Reads an optionally negative numeral; anything else is rejected. */
  function ParseInt(s: string): Option<int> {
    if |s| >= 2 && s[0] == '-' && AllDigits(s[1..]) then Some(-(DigitsValue(s[1..]) as int))
    else if |s| >= 1 && AllDigits(s) then Some(DigitsValue(s))
    else None
  }
}

=== FILE: js_text.dfy ===
/**
 The JavaScript string operations the extension relies on, over Dafny strings:
 `String.prototype.trim`, `startsWith` and `split` with a one-character
 separator, together with the facts about them that the other modules use.
 */
module JsText {

  /** The characters `trim` removes: ECMAScript WhiteSpace and LineTerminator. */
  predicate IsJsSpace(c: char) {
    || c == '\t' || c == '\U{B}' || c == '\U{C}' || c == ' '
    || c == '\U{A0}' || c == '\U{FEFF}' || c == '\U{1680}'
    || ('\U{2000}' <= c <= '\U{200A}')
    || c == '\U{202F}' || c == '\U{205F}' || c == '\U{3000}'
    || c == '\n' || c == '\r' || c == '\U{2028}' || c == '\U{2029}'
  }

  predicate AllSpace(s: string) {
    forall i | 0 <= i < |s| :: IsJsSpace(s[i])
  }

  /** Neither end of `s` is white space (vacuously true of ""). */
  predicate Tight(s: string) {
    s == [] || (!IsJsSpace(s[0]) && !IsJsSpace(s[|s| - 1]))
  }

  /** `s` with its leading white space removed. */
  function TrimStart(s: string): (r: string)
    ensures |r| <= |s| && r == s[|s| - |r|..]
    ensures r == [] || !IsJsSpace(r[0])
  {
    if s != [] && IsJsSpace(s[0]) then TrimStart(s[1..]) else s
  }

  /** `s` with its trailing white space removed. */
  function TrimEnd(s: string): (r: string)
    ensures |r| <= |s| && r == s[..|r|]
    ensures r == [] || !IsJsSpace(r[|r| - 1])
  {
    if s != [] && IsJsSpace(s[|s| - 1]) then TrimEnd(s[..|s| - 1]) else s
  }

  /** What `TrimStart` removes is all white space. */
  lemma {:induction false} TrimStartDropsSpace(s: string)
    ensures AllSpace(s[..|s| - |TrimStart(s)|])
    decreases |s|
  {
    if s != [] && IsJsSpace(s[0]) {
      var r := TrimStart(s[1..]);
      TrimStartDropsSpace(s[1..]);
      assert s[..|s| - |r|] == [s[0]] + s[1..][..|s| - 1 - |r|];
    }
  }

  /** What `TrimEnd` removes is all white space. */
  lemma {:induction false} TrimEndDropsSpace(s: string)
    ensures AllSpace(s[|TrimEnd(s)|..])
    decreases |s|
  {
    if s != [] && IsJsSpace(s[|s| - 1]) {
      var r := TrimEnd(s[..|s| - 1]);
      TrimEndDropsSpace(s[..|s| - 1]);
      assert s[|r|..] == s[..|s| - 1][|r|..] + [s[|s| - 1]];
    }
  }

  /** `s` is `r` padded on both sides with white space only. */
  ghost predicate PaddedBy(s: string, r: string) {
    exists i, j | 0 <= i <= j <= |s| :: s[i..j] == r && AllSpace(s[..i]) && AllSpace(s[j..])
  }

  /** `s.trim()`: both ends stripped of white space. */
  function Trim(s: string): (r: string)
    ensures Tight(r)
  {
    TrimEnd(TrimStart(s))
  }

  /** `Trim(s)` is the tight core of `s` once its white-space padding is gone. */
  lemma TrimPadded(s: string)
    ensures PaddedBy(s, Trim(s))
  {
    var t := TrimStart(s);
    var r := TrimEnd(t);
    TrimStartDropsSpace(s);
    TrimEndDropsSpace(t);
    var i := |s| - |t|;
    assert s[i..i + |r|] == r;
    assert s[i + |r|..] == t[|r|..];
  }

  lemma {:induction false} TrimStartOfPadded(a: string, t: string)
    requires AllSpace(a)
    requires t == [] || !IsJsSpace(t[0])
    ensures TrimStart(a + t) == t
    decreases |a|
  {
    if a != [] {
      assert (a + t)[1..] == a[1..] + t;
      TrimStartOfPadded(a[1..], t);
    } else {
      assert a + t == t;
    }
  }

  lemma {:induction false} TrimEndOfPadded(t: string, b: string)
    requires AllSpace(b)
    requires t == [] || !IsJsSpace(t[|t| - 1])
    ensures TrimEnd(t + b) == t
    decreases |b|
  {
    if b != [] {
      var b' := b[..|b| - 1];
      assert (t + b)[..|t + b| - 1] == t + b';
      TrimEndOfPadded(t, b');
    } else {
      assert t + b == t;
    }
  }

  /** Trimming recovers exactly the tight core of any white-space padding,
      so `Trim` is the unique `r` with `Tight(r) && PaddedBy(s, r)`. */
  lemma TrimOfPadded(a: string, t: string, b: string)
    requires AllSpace(a) && AllSpace(b) && Tight(t)
    ensures Trim(a + t + b) == t
  {
    if t == [] {
      assert a + t + b == a + b;
      assert AllSpace(a + b);
      TrimStartOfPadded(a + b, []);
      assert a + b + [] == a + b;
    } else {
      assert a + t + b == a + (t + b);
      TrimStartOfPadded(a, t + b);
      TrimEndOfPadded(t, b);
    }
  }

  /** Trimming only removes characters. */
  lemma {:induction false} TrimStartKeeps(s: string, c: char)
    requires c !in s
    ensures c !in TrimStart(s)
    decreases |s|
  {
    if s != [] && IsJsSpace(s[0]) {
      assert c !in s[1..];
      TrimStartKeeps(s[1..], c);
    }
  }

  lemma {:induction false} TrimEndKeeps(s: string, c: char)
    requires c !in s
    ensures c !in TrimEnd(s)
    decreases |s|
  {
    if s != [] && IsJsSpace(s[|s| - 1]) {
      assert c !in s[..|s| - 1];
      TrimEndKeeps(s[..|s| - 1], c);
    }
  }

  lemma TrimKeeps(s: string, c: char)
    requires c !in s
    ensures c !in Trim(s)
  {
    TrimStartKeeps(s, c);
    TrimEndKeeps(TrimStart(s), c);
  }

  /** Trimming twice is trimming once. */
  lemma TrimIdempotent(s: string)
    ensures Trim(Trim(s)) == Trim(s)
  {
    var t := Trim(s);
    assert AllSpace([]);
    TrimOfPadded([], t, []);
    assert [] + t + [] == t;
  }

  /** `s.startsWith(p)`. */
  predicate StartsWith(s: string, p: string) {
    |p| <= |s| && s[..|p|] == p
  }

  /** `parts.join(sep)` for a non-empty list of parts. */
  function Join(parts: seq<string>, sep: char): string
    requires |parts| >= 1
  {
    if |parts| == 1 then parts[0] else parts[0] + [sep] + Join(parts[1..], sep)
  }

  /** `s.split(sep)` for a one-character separator: the pieces between
      separators, left to right. */
  function Split(s: string, sep: char): (parts: seq<string>)
    ensures |parts| >= 1
  {
    if s == [] then [""]
    else
      var rest := Split(s[1..], sep);
      if s[0] == sep then [""] + rest
      else [[s[0]] + rest[0]] + rest[1..]
  }

  /** There is one more piece than there are separators. */
  lemma {:induction false} SplitCount(s: string, sep: char)
    ensures |Split(s, sep)| == multiset(s)[sep] + 1
    decreases |s|
  {
    if s != [] {
      SplitCount(s[1..], sep);
      CountCons(s, sep);
    }
  }

  /** No piece holds the separator. */
  lemma {:induction false} SplitPiecesFree(s: string, sep: char)
    ensures forall i | 0 <= i < |Split(s, sep)| :: sep !in Split(s, sep)[i]
    decreases |s|
  {
    if s != [] {
      var rest := Split(s[1..], sep);
      SplitPiecesFree(s[1..], sep);
      var parts := Split(s, sep);
      if s[0] == sep {
        assert parts == [""] + rest;
        assert forall i | 1 <= i < |parts| :: parts[i] == rest[i - 1];
      } else {
        assert parts == [[s[0]] + rest[0]] + rest[1..];
        assert forall i | 1 <= i < |parts| :: parts[i] == rest[i];
        assert sep !in rest[0];
      }
    }
  }

  /** Joining the pieces with the separator gives back `s`. */
  lemma {:induction false} SplitJoin(s: string, sep: char)
    ensures Join(Split(s, sep), sep) == s
    decreases |s|
  {
    if s != [] {
      var rest := Split(s[1..], sep);
      SplitJoin(s[1..], sep);
      if s[0] == sep {
        JoinSep(rest, sep);
      } else {
        JoinHead(rest, s[0], sep);
      }
      assert s == [s[0]] + s[1..];
    }
  }

  /** The three facts together. */
  lemma SplitParts(s: string, sep: char)
    ensures |Split(s, sep)| == multiset(s)[sep] + 1
    ensures forall i | 0 <= i < |Split(s, sep)| :: sep !in Split(s, sep)[i]
    ensures Join(Split(s, sep), sep) == s
  {
    SplitCount(s, sep);
    SplitPiecesFree(s, sep);
    SplitJoin(s, sep);
  }

  lemma CountCons(s: string, c: char)
    requires s != []
    ensures multiset(s)[c] == multiset(s[1..])[c] + (if s[0] == c then 1 else 0)
  {
    assert s == [s[0]] + s[1..];
  }

  lemma JoinSep(parts: seq<string>, sep: char)
    requires |parts| >= 1
    ensures Join([""] + parts, sep) == [sep] + Join(parts, sep)
  {
    assert ([""] + parts)[1..] == parts;
  }

  lemma JoinHead(parts: seq<string>, c: char, sep: char)
    requires |parts| >= 1
    ensures Join([[c] + parts[0]] + parts[1..], sep) == [c] + Join(parts, sep)
  {
    var ps := [[c] + parts[0]] + parts[1..];
    if |parts| > 1 {
      assert ps[1..] == parts[1..];
    }
  }

  /** A separator-free head splits off as the first part. */
  lemma {:induction false} SplitAtFirst(a: string, sep: char, b: string)
    requires sep !in a
    ensures Split(a + [sep] + b, sep) == [a] + Split(b, sep)
    decreases |a|
  {
    var s := a + [sep] + b;
    if a == [] {
      assert s[0] == sep && s[1..] == b;
    } else {
      assert s[0] == a[0] && s[1..] == a[1..] + [sep] + b;
      SplitAtFirst(a[1..], sep, b);
      var rest := Split(s[1..], sep);
      assert rest == [a[1..]] + Split(b, sep);
      assert rest[0] == a[1..] && rest[1..] == Split(b, sep);
      assert Split(s, sep) == [[a[0]] + rest[0]] + rest[1..];
      assert [a[0]] + a[1..] == a;
    }
  }

  /** A string without the separator is one part. */
  lemma {:induction false} SplitNone(s: string, sep: char)
    requires sep !in s
    ensures Split(s, sep) == [s]
    decreases |s|
  {
    if s != [] {
      assert s[0] != sep && sep !in s[1..];
      SplitNone(s[1..], sep);
      assert [s[0]] + s[1..] == s;
    }
  }
}

=== FILE: js_value.dfy ===
/**
 The few facts about JavaScript values that the extension's logic observes:
 whether a value is truthy, what `String(v)` renders it as, and whether it is
 a string (only strings have `.replace`, `.split` and `.trim`).
 */
module JsValue {

  datatype Value =
    | Undefined
    | Null
    | Str(s: string)
      /** Any other value (number, boolean, object, array), described by its
          JavaScript truthiness and by the text `String(v)` produces. */
    | Other(truthy: bool, text: string)
  {

    /** JavaScript truthiness: `undefined`, `null` and `""` are falsy. */
    predicate Truthy() {
      match this
      case Undefined => false
      case Null => false
      case Str(s) => s != ""
      case Other(t, _) => t
    }

    /** `String(v)`. */
    function ToStr(): string {
      match this
      case Undefined => "undefined"
      case Null => "null"
      case Str(s) => s
      case Other(_, t) => t
    }

    /** `v || fallback`. */
    function Or(fallback: Value): Value {
      if Truthy() then this else fallback
    }
  }
}

=== FILE: options.dfy ===
/** The optional-value datatype shared by the other modules. */
module Options {

  datatype Option<+T> = None | Some(value: T) {

    /** The carried value, or `default` when there is none. */
    function GetOr(default: T): T {
      match this
      case Some(v) => v
      case None => default
    }
  }
}

=== FILE: resolver_properties.dfy ===
/**
 Properties of the whole resolver, relating its result to the report rows,
 the day type and the timetable.
 */
module ResolverProperties {
  import opened Options
  import opened JsValue
  import opened Calendar
  import opened Schedule

  /** A report that carries data, read on a weekday. */
  predicate SchoolDayWithRows(report: Option<Report>, now: Instant, raw: seq<RawRow>) {
    report.Some? && report.value.data == Rows(raw) && !IsWeekend(now.day)
  }

  /** On a weekday, the generic error comes from a row whose period is not a
      string, and from nothing else. */
  lemma ResolveErrorIffBadPeriod(report: Option<Report>, now: Instant, raw: seq<RawRow>)
    requires SchoolDayWithRows(report, now, raw)
    ensures Resolve(report, now) == Message(ErrorMessage) <==>
      exists i | 0 <= i < |raw| :: !CellAt(raw[i], 2).Str?
  {
    if forall i | 0 <= i < |raw| :: CellAt(raw[i], 2).Str? {
      assert forall i | 0 <= i < |raw| :: NormaliseRow(raw[i]).Some?;
    } else {
      var i :| 0 <= i < |raw| && !CellAt(raw[i], 2).Str?;
      assert NormaliseRow(raw[i]).None?;
    }
  }

  /** What a full result carries: today's day type and date, a row of the
      normalised list, and a lunch wave exactly for a mid-day period with a
      room. The no-class result only arises from an empty row list. */
  lemma ResolveResultShape(report: Option<Report>, now: Instant)
    ensures var r := Resolve(report, now);
      r.Current? ==> && !IsWeekend(now.day)
                     && r.abDay == DayTypeOn(now.day)
                     && r.date == now.day
                     && (r.lunch.Some? <==> IsMidDayPeriod(r.period) && r.room.Truthy())
                     && PeriodRow(r.period, r.className, r.teacher, r.room) in r.allPeriods
    ensures var r := Resolve(report, now);
      r.NoClassInfo? ==> r.abDay == DayTypeOn(now.day) && r.allPeriods == []
  {
  }

  /** The outer catch: the generic error message is shown exactly when the
      fetch or parse failed, or, on a weekday with report data, when that data
      is not an array or some row's period cell is not a string. A missing
      report, missing data or a weekend never produce it. */
  lemma GetCurrentClassInfoErrorIff(fetched: Fetched, now: Instant)
    ensures GetCurrentClassInfo(fetched, now) == Message(ErrorMessage) <==>
      || fetched.FetchFailed?
      || (&& fetched.report.Some?
          && !fetched.report.value.data.NoData?
          && !IsWeekend(now.day)
          && (|| fetched.report.value.data.NotAnArray?
              || exists i | 0 <= i < |fetched.report.value.data.rows| ::
                   !CellAt(fetched.report.value.data.rows[i], 2).Str?))
  {
    if fetched.Parsed? && fetched.report.Some? && fetched.report.value.data.Rows? && !IsWeekend(now.day) {
      ResolveErrorIffBadPeriod(fetched.report, now, fetched.report.value.data.rows);
    }
  }

  /** A truthy `data` that is not an array makes `.map` throw. */
  lemma DataNotAnArrayIsError(name: Value, now: Instant)
    requires !IsWeekend(now.day)
    ensures Resolve(Some(Report(NotAnArray, name)), now) == Message(ErrorMessage)
  {
  }

  /** An empty row list yields the "no class information" result, carrying
      the day type and the (empty) normalised rows. */
  lemma EmptyRowsNoClassInfo(name: Value, now: Instant)
    requires !IsWeekend(now.day)
    ensures Resolve(Some(Report(Rows([]), name)), now) == NoClassInfo(DayTypeOn(now.day), [])
    ensures Resolve(Some(Report(Rows([]), name)), now).MessageText() == Some(NoClassMessage)
  {
  }

  lemma SelectFirstCarrier(all: seq<PeriodRow>, k: nat)
    requires k < |all|
    requires forall j | 0 <= j < k :: all[j].period != all[k].period
    ensures SelectRow(all, all[k].period) == Some(all[k])
  {
    var f := FindRow(all, all[k].period);
    assert f.Some?;
    assert !(f.value < k);
    assert !(f.value > k);
  }

  /** On a weekday with well-formed rows the result is decided by the
      normalised rows alone. */
  lemma ResolveUsesNormalisedRows(report: Option<Report>, now: Instant,
                                  raw: seq<RawRow>, all: seq<PeriodRow>)
    requires SchoolDayWithRows(report, now, raw)
    requires NormaliseRows(raw) == Some(all)
    ensures Resolve(report, now) == ClassFor(all, report.value.name, now)
  {
  }

  /** When some row carries the active period, the result is the first such
      row, with the student's name defaulting to "Student". */
  lemma ResolvePicksActiveRow(report: Option<Report>, now: Instant,
                              raw: seq<RawRow>, all: seq<PeriodRow>, k: nat)
    requires SchoolDayWithRows(report, now, raw)
    requires NormaliseRows(raw) == Some(all)
    ensures && k < |all| && all[k].period == ActivePeriod(DayTypeOn(now.day), now.minute)
            && (forall j | 0 <= j < k :: all[j].period != all[k].period)
        ==> Resolve(report, now) == Current(
              report.value.name.Or(Str("Student")), now.day, DayTypeOn(now.day), all[k].period,
              all[k].className, all[k].teacher, all[k].room, LunchFor(all[k]), all)
  {
    if k < |all| && all[k].period == ActivePeriod(DayTypeOn(now.day), now.minute)
       && forall j | 0 <= j < k :: all[j].period != all[k].period {
      ResolveUsesNormalisedRows(report, now, raw, all);
      SelectFirstCarrier(all, k);
    }
  }

  /** When no row carries the active period, the first row is shown instead,
      period and all. */
  lemma ResolveFallsBackToFirstRow(report: Option<Report>, now: Instant,
                                   raw: seq<RawRow>, all: seq<PeriodRow>)
    requires SchoolDayWithRows(report, now, raw)
    requires NormaliseRows(raw) == Some(all) && all != []
    requires forall j | 0 <= j < |all| :: all[j].period != ActivePeriod(DayTypeOn(now.day), now.minute)
    ensures Resolve(report, now) == Current(
      report.value.name.Or(Str("Student")), now.day, DayTypeOn(now.day), all[0].period,
      all[0].className, all[0].teacher, all[0].room, LunchFor(all[0]), all)
  {
    ResolveUsesNormalisedRows(report, now, raw, all);
    SelectRowChoice(all, ActivePeriod(DayTypeOn(now.day), now.minute));
  }

  /** The day type is a function of the date alone, not of the time of day. */
  lemma DayTypeIgnoresTimeOfDay(report: Option<Report>, day: int, m1: MinuteOfDay, m2: MinuteOfDay)
    ensures Resolve(report, Instant(day, m1)).Current? && Resolve(report, Instant(day, m2)).Current? ==>
      Resolve(report, Instant(day, m1)).abDay == Resolve(report, Instant(day, m2)).abDay
  {
  }

  /** A lunch wave appears only for periods "3" and "7" with a truthy room,
      and is the band of the trimmed room text. */
  lemma ResolveLunch(report: Option<Report>, now: Instant)
    ensures var r := Resolve(report, now);
      r.Current? ==>
        && (r.lunch.Some? <==> (r.period == "3" || r.period == "7") && r.room.Truthy())
        && (r.lunch.Some? ==> r.lunch.value == LunchWaveFor(JsText.Trim(r.room.ToStr())))
  {
    if !Resolve(report, now).Current? {
      return;
    }
    var raw := report.value.data.rows;
    var all := NormaliseRows(raw).value;
    ResolveUsesNormalisedRows(report, now, raw, all);
    ClassForLunch(all, report.value.name, now);
  }

  /** The lunch field of a selected class comes from its row. */
  lemma ClassForLunch(all: seq<PeriodRow>, name: Value, now: Instant)
    requires ClassFor(all, name, now).Current?
    ensures var r := ClassFor(all, name, now);
      && (r.lunch.Some? <==> (r.period == "3" || r.period == "7") && r.room.Truthy())
      && (r.lunch.Some? ==> r.lunch.value == LunchWaveFor(JsText.Trim(r.room.ToStr())))
  {
    var row := SelectRow(all, ActivePeriod(DayTypeOn(now.day), now.minute)).value;
    assert ClassFor(all, name, now).lunch == LunchFor(row);
  }

  /** A zero-padded period cell normalises to the same row as the bare one,
      so "03" and "3" select the same class. */
  lemma PaddedPeriodSameRow(c0: Value, c1: Value, z: string, p: string, c3: Value, c4: Value)
    requires AllZeros(z)
    ensures NormaliseRow([c0, c1, Str(z + p), c3, c4]) == NormaliseRow([c0, c1, Str(p), c3, c4])
  {
    var padded: RawRow := [c0, c1, Str(z + p), c3, c4];
    var bare: RawRow := [c0, c1, Str(p), c3, c4];
    assert CellAt(padded, 2) == Str(z + p) && CellAt(bare, 2) == Str(p);
    assert CellAt(padded, 1) == CellAt(bare, 1) && CellAt(padded, 3) == CellAt(bare, 3)
        && CellAt(padded, 4) == CellAt(bare, 4);
    PaddedPeriodsAgree(z, p);
  }

  // ---------------------------------------------------------------------------
  // Worked scenarios

  /** Tuesday 2025-05-06: ten school days from the anchor inclusive, an A day. */
  const ATuesday: int := 20214

  lemma ATuesdayIsADay()
    ensures !IsWeekend(ATuesday) && DayTypeOn(ATuesday) == A
  {
    BeforeAnchorIsADay(AnchorDay - 1);
    DayTypeWeekLater(AnchorDay - 1);
    DayTypeWeekLater(AnchorDay + 6);
  }

  /** A report row `[_, className, period, teacher, room]`. */
  function Row(className: Value, period: string, teacher: Value, room: Value): RawRow {
    [Undefined, className, Str(period), teacher, room]
  }

  lemma StripExamples()
    ensures StripLeadingZeros("01") == "1" && StripLeadingZeros("03") == "3"
  {
    assert "01" == "0" + "1";
    assert "03" == "0" + "3";
    StripZerosPrefix("0", "1");
    StripZerosPrefix("0", "3");
  }

  lemma NormaliseRowExample(className: Value, period: string, teacher: Value, room: Value)
    ensures NormaliseRow(Row(className, period, teacher, room))
         == Some(PeriodRow(StripLeadingZeros(period), className, teacher, room))
  {
    var row := Row(className, period, teacher, room);
    assert |row| == 5;
    assert CellAt(row, 1) == className && CellAt(row, 2) == Str(period);
    assert CellAt(row, 3) == teacher && CellAt(row, 4) == room;
  }

  /** The normalised rows are determined row by row. */
  lemma NormaliseRowsPointwise(rows: seq<RawRow>, out: seq<PeriodRow>)
    requires |out| == |rows|
    requires forall i | 0 <= i < |rows| :: NormaliseRow(rows[i]) == Some(out[i])
    ensures NormaliseRows(rows) == Some(out)
  {
    var r := NormaliseRows(rows);
    assert forall i | 0 <= i < |rows| :: NormaliseRow(rows[i]).Some?;
    assert r.Some?;
    var v := r.value;
    assert |v| == |out|;
    forall i | 0 <= i < |rows|
      ensures v[i] == out[i]
    {
      assert NormaliseRow(rows[i]) == Some(v[i]);
    }
    assert v == out;
  }

  lemma NormaliseOneRow(r1: RawRow, o1: PeriodRow)
    requires NormaliseRow(r1) == Some(o1)
    ensures NormaliseRows([r1]) == Some([o1])
  {
    var rows: seq<RawRow> := [r1];
    var out: seq<PeriodRow> := [o1];
    NormaliseRowsPointwise(rows, out);
  }

  lemma NormaliseTwoRows(r1: RawRow, r2: RawRow, o1: PeriodRow, o2: PeriodRow)
    requires NormaliseRow(r1) == Some(o1) && NormaliseRow(r2) == Some(o2)
    ensures NormaliseRows([r1, r2]) == Some([o1, o2])
  {
    var rows: seq<RawRow> := [r1, r2];
    var out: seq<PeriodRow> := [o1, o2];
    NormaliseRowsPointwise(rows, out);
  }

  lemma ActivePeriodExamples()
    ensures ActivePeriod(A, Minutes(9, 0)) == "1"
    ensures ActivePeriod(A, Minutes(13, 0)) == "3"
    ensures ActivePeriod(A, Minutes(7, 0)) == "1"
  {
    ActivePeriodInSlot(A, 0, Minutes(9, 0));
    ActivePeriodInSlot(A, 2, Minutes(13, 0));
    ActivePeriodOutsideSlots(A, Minutes(7, 0));
  }

  lemma PeriodOneNotMidDay()
    ensures !IsMidDayPeriod("1")
  {
    assert "1"[0] != "3"[0] && "1"[0] != "7"[0];
  }

  lemma PeriodsDiffer()
    ensures "1" != "3"
  {
    assert "1"[0] != "3"[0];
  }

  lemma Room905Lunch()
    ensures LunchWaveFor(JsText.Trim("905")) == WaveD
  {
    TrimRoom();
    LunchWaveDefaults();
  }

  lemma TrimRoom()
    ensures JsText.Trim("905") == "905"
  {
    assert JsText.AllSpace([]);
    assert JsText.Tight("905");
    JsText.TrimOfPadded([], "905", []);
    assert [] + "905" + [] == "905";
  }

  /** The class shown at 13:00 on an A day when the second of two rows is
      for period 3 and the first is not. */
  lemma ClassForSecondRowAtOne(day: int, first: PeriodRow, third: PeriodRow, name: Value)
    requires DayTypeOn(day) == A && first.period == "1" && third.period == "3"
    ensures ClassFor([first, third], name, Instant(day, Minutes(13, 0))) == Current(
      name.Or(Str("Student")), day, A, "3", third.className, third.teacher, third.room,
      LunchFor(third), [first, third])
  {
    var all := [first, third];
    ActivePeriodExamples();
    PeriodsDiffer();
    SelectFirstCarrier(all, 1);
  }

  /** A single row written with period "01" normalises to period "1". */
  lemma NormaliseOnePadded(className: Value, teacher: Value, room: Value)
    ensures NormaliseRows([Row(className, "01", teacher, room)])
         == Some([PeriodRow("1", className, teacher, room)])
  {
    StripExamples();
    NormaliseRowExample(className, "01", teacher, room);
    NormaliseOneRow(Row(className, "01", teacher, room), PeriodRow("1", className, teacher, room));
  }

  /** The class shown at 09:00 on an A day from a single period-1 row. */
  lemma ClassForOnlyRowAtNine(day: int, only: PeriodRow, name: Value)
    requires DayTypeOn(day) == A && only.period == "1"
    ensures ClassFor([only], name, Instant(day, Minutes(9, 0))) == Current(
      name.Or(Str("Student")), day, A, "1", only.className, only.teacher, only.room,
      None, [only])
  {
    ActivePeriodExamples();
    SelectFirstCarrier([only], 0);
    PeriodOneNotMidDay();
  }

  /** The class shown at 13:00 on an A day from a single period-1 row. */
  lemma ClassForOnlyRowAtOne(day: int, only: PeriodRow, name: Value)
    requires DayTypeOn(day) == A && only.period == "1"
    ensures ClassFor([only], name, Instant(day, Minutes(13, 0))) == Current(
      name.Or(Str("Student")), day, A, "1", only.className, only.teacher, only.room,
      None, [only])
  {
    ActivePeriodExamples();
    PeriodsDiffer();
    SelectRowChoice([only], "3");
    PeriodOneNotMidDay();
  }

  /** On any A weekday, 09:00 falls in slot 1, so the row whose period is
      written "01" is the current class. */
  lemma ScenarioMorningClass(report: Option<Report>, now: Instant,
                             className: Value, teacher: Value, room: Value)
    requires report == Some(Report(Rows([Row(className, "01", teacher, room)]), Undefined))
    requires !IsWeekend(now.day) && DayTypeOn(now.day) == A && now.minute == Minutes(9, 0)
    ensures var r := Resolve(report, now);
      && r.Current? && r.abDay == A && r.period == "1" && r.className == className
      && r.name == Str("Student") && r.lunch == None
  {
    var raw := [Row(className, "01", teacher, room)];
    var only := PeriodRow("1", className, teacher, room);
    NormaliseOnePadded(className, teacher, room);
    ResolveUsesNormalisedRows(report, now, raw, [only]);
    ClassForOnlyRowAtNine(now.day, only, Undefined);
  }

  /** 13:00 is slot 3, but with no period-3 row the first row (period "1")
      is shown, so no lunch wave is attached. */
  lemma ScenarioMidDayWithoutPeriodThree(report: Option<Report>, now: Instant,
                                         className: Value, teacher: Value, room: Value)
    requires report == Some(Report(Rows([Row(className, "01", teacher, room)]), Undefined))
    requires !IsWeekend(now.day) && DayTypeOn(now.day) == A && now.minute == Minutes(13, 0)
    ensures var r := Resolve(report, now);
      && r.Current? && r.period == "1" && r.className == className && r.lunch == None
  {
    var raw := [Row(className, "01", teacher, room)];
    var only := PeriodRow("1", className, teacher, room);
    NormaliseOnePadded(className, teacher, room);
    ResolveUsesNormalisedRows(report, now, raw, [only]);
    ClassForOnlyRowAtOne(now.day, only, Undefined);
  }

  /** Rows written with periods "01" and "03" (in either order) normalise
      to periods "1" and "3". */
  lemma NormalisePaddedPair(c1: Value, p1: string, c2: Value, p2: string, teacher: Value, room: Value)
    requires (p1 == "01" && p2 == "03") || (p1 == "03" && p2 == "01")
    ensures NormaliseRows([Row(c1, p1, teacher, room), Row(c2, p2, teacher, room)])
         == Some([PeriodRow(StripLeadingZeros(p1), c1, teacher, room),
                  PeriodRow(StripLeadingZeros(p2), c2, teacher, room)])
  {
    NormaliseRowExample(c1, p1, teacher, room);
    NormaliseRowExample(c2, p2, teacher, room);
    NormaliseTwoRows(Row(c1, p1, teacher, room), Row(c2, p2, teacher, room),
                     PeriodRow(StripLeadingZeros(p1), c1, teacher, room),
                     PeriodRow(StripLeadingZeros(p2), c2, teacher, room));
  }

  /** A period-3 row in room "905" gets lunch wave D. */
  lemma LunchInRoom905(row: PeriodRow)
    requires row.period == "3" && row.room == Str("905")
    ensures LunchFor(row) == Some(WaveD)
  {
    Room905Lunch();
  }

  /** The class shown at 07:00 on an A day when the second of two rows is
      for period 1 and the first is for period 3. */
  lemma ClassForBeforeSchool(day: int, third: PeriodRow, first: PeriodRow, name: Value)
    requires DayTypeOn(day) == A && third.period == "3" && first.period == "1"
    ensures ClassFor([third, first], name, Instant(day, Minutes(7, 0))) == Current(
      name.Or(Str("Student")), day, A, "1", first.className, first.teacher, first.room,
      LunchFor(first), [third, first])
  {
    var all := [third, first];
    ActivePeriodExamples();
    PeriodsDiffer();
    assert all[0].period != all[1].period;
    SelectFirstCarrier(all, 1);
  }

  /** With a row for period "03" at 13:00 that row is shown with a lunch
      wave; room "905" matches no band prefix, so the wave is D. */
  lemma ScenarioMidDayLunch(report: Option<Report>, now: Instant,
                            first: Value, third: Value, teacher: Value, name: Value)
    requires report == Some(Report(Rows([Row(first, "01", teacher, Str("905")),
                                         Row(third, "03", teacher, Str("905"))]), name))
    requires !IsWeekend(now.day) && DayTypeOn(now.day) == A && now.minute == Minutes(13, 0)
    requires name.Truthy()
    ensures var r := Resolve(report, now);
      && r.Current? && r.period == "3" && r.className == third
      && r.name == name && r.lunch == Some(WaveD)
  {
    var raw := [Row(first, "01", teacher, Str("905")), Row(third, "03", teacher, Str("905"))];
    var n1, n3 := PeriodRow("1", first, teacher, Str("905")), PeriodRow("3", third, teacher, Str("905"));
    StripExamples();
    NormalisePaddedPair(first, "01", third, "03", teacher, Str("905"));
    ResolveUsesNormalisedRows(report, now, raw, [n1, n3]);
    ClassForSecondRowAtOne(now.day, n1, n3, name);
    LunchInRoom905(n3);
  }

  /** 07:00, before school, on an A day defaults to period "1", even when
      the period-1 row is not listed first. */
  lemma ScenarioBeforeSchool(report: Option<Report>, now: Instant,
                             first: Value, third: Value, teacher: Value, room: Value)
    requires report == Some(Report(Rows([Row(third, "03", teacher, room),
                                         Row(first, "01", teacher, room)]), Undefined))
    requires !IsWeekend(now.day) && DayTypeOn(now.day) == A && now.minute == Minutes(7, 0)
    ensures var r := Resolve(report, now);
      r.Current? && r.period == "1" && r.className == first
  {
    var raw := [Row(third, "03", teacher, room), Row(first, "01", teacher, room)];
    var n3, n1 := PeriodRow("3", third, teacher, room), PeriodRow("1", first, teacher, room);
    StripExamples();
    NormalisePaddedPair(third, "03", first, "01", teacher, room);
    ResolveUsesNormalisedRows(report, now, raw, [n3, n1]);
    ClassForBeforeSchool(now.day, n3, n1, Undefined);
  }
}

=== FILE: schedule.dfy ===
/**
 The period resolver of `getCurrentClassInfo`: from a fetched schedule report
 and the current local time to the current class, its A/B day and, for the
 mid-day periods, the lunch wave. Everything after the report has been
 fetched is a pure computation, modelled here as total functions.
 */
module Schedule {
  import opened Options
  import opened JsValue
  import opened JsText
  import opened Calendar

  // ---------------------------------------------------------------------------
  // Report and result shapes

  /** One report row: an array whose cells 1..4 are class name, period,
      teacher and room. */
  type RawRow = seq<Value>

  /** `row[i]`: reading past the end of an array yields `undefined`. */
  function CellAt(row: RawRow, i: nat): Value {
    if i < |row| then row[i] else Undefined
  }

  /** The `data` field of a report: falsy (absent, null, ...), an array of
      rows, or some other truthy value that has no `.map`. */
  datatype ReportData = NoData | Rows(rows: seq<RawRow>) | NotAnArray

  datatype Report = Report(data: ReportData, name: Value)

  /** The normalised row kept in `allPeriods`. */
  datatype PeriodRow = PeriodRow(period: string, className: Value, teacher: Value, room: Value)

  datatype Wave = WaveA | WaveB | WaveC | WaveD

  const NoScheduleMessage: string := "Could not retrieve your schedule."
  const WeekendMessage: string := "It's the weekend! No school today."
  const NoClassMessage: string := "No class information available"
  const ErrorMessage: string := "An error occurred while retrieving your schedule."

  datatype ClassInfo =
    | Message(text: string)
      /** `{message: "No class information available", abDay, allPeriods}` */
    | NoClassInfo(abDay: DayType, allPeriods: seq<PeriodRow>)
      /** The full result; `date` is the day whose `toLocaleDateString()` is shown. */
    | Current(name: Value, date: int, abDay: DayType, period: string,
              className: Value, teacher: Value, room: Value,
              lunch: Option<Wave>, allPeriods: seq<PeriodRow>)
  {
    /** The `message` field, when the result has one. */
    function MessageText(): Option<string> {
      match this
      case Message(t) => Some(t)
      case NoClassInfo(_, _) => Some(NoClassMessage)
      case Current(_, _, _, _, _, _, _, _, _) => None
    }
  }

  // ---------------------------------------------------------------------------
  // Period normalisation

  /** `period.replace(/^0+/, '')`. */
  function StripLeadingZeros(s: string): (r: string)
    ensures |r| <= |s| && r == s[|s| - |r|..]
    ensures r == [] || r[0] != '0'
  {
    if s != [] && s[0] == '0' then StripLeadingZeros(s[1..]) else s
  }

  predicate AllZeros(z: string) {
    forall i | 0 <= i < |z| :: z[i] == '0'
  }

  /** Any run of leading zeros is removed, and nothing else:
      `StripLeadingZeros` is the unique suffix that is either empty or
      starts with a non-zero. */
  lemma {:induction false} StripZerosPrefix(z: string, t: string)
    requires AllZeros(z)
    requires t == [] || t[0] != '0'
    ensures StripLeadingZeros(z + t) == t
    decreases |z|
  {
    if z == [] {
      assert z + t == t;
    } else {
      assert (z + t)[1..] == z[1..] + t;
      StripZerosPrefix(z[1..], t);
    }
  }

  /** What is stripped is all zeros. */
  lemma {:induction false} StripDropsZeros(s: string)
    ensures AllZeros(s[..|s| - |StripLeadingZeros(s)|])
    decreases |s|
  {
    if s != [] && s[0] == '0' {
      var r := StripLeadingZeros(s[1..]);
      StripDropsZeros(s[1..]);
      assert s[..|s| - |r|] == [s[0]] + s[1..][..|s| - 1 - |r|];
    }
  }

  /** Stripping is idempotent. */
  lemma StripIdempotent(s: string)
    ensures StripLeadingZeros(StripLeadingZeros(s)) == StripLeadingZeros(s)
  {
    var r := StripLeadingZeros(s);
    StripZerosPrefix([], r);
    assert [] + r == r;
  }

  /** Zero-padding a period does not change its key: "03" and "3" are one period. */
  lemma {:induction false} PaddedPeriodsAgree(z: string, s: string)
    requires AllZeros(z)
    ensures StripLeadingZeros(z + s) == StripLeadingZeros(s)
    decreases |z|
  {
    if z == [] {
      assert z + s == s;
    } else {
      assert (z + s)[0] == '0' && (z + s)[1..] == z[1..] + s;
      PaddedPeriodsAgree(z[1..], s);
    }
  }

  /** Normalises one row; `None` is the TypeError `.replace` raises when
      the period cell is not a string. */
  function NormaliseRow(row: RawRow): Option<PeriodRow> {
    match CellAt(row, 2)
    case Str(p) => Some(PeriodRow(StripLeadingZeros(p), CellAt(row, 1), CellAt(row, 3), CellAt(row, 4)))
    case _ => None
  }

  /** `report.data.map(...)`: every row normalised, in order; one bad row
      makes the whole map throw. */
  function NormaliseRows(rows: seq<RawRow>): (r: Option<seq<PeriodRow>>)
    ensures r.Some? <==> forall i | 0 <= i < |rows| :: NormaliseRow(rows[i]).Some?
    ensures r.Some? ==> |r.value| == |rows|
    ensures r.Some? ==> forall i | 0 <= i < |rows| :: NormaliseRow(rows[i]) == Some(r.value[i])
  {
    if rows == [] then Some([])
    else
      match NormaliseRow(rows[0])
      case None => None
      case Some(row) =>
        match NormaliseRows(rows[1..])
        case None => None
        case Some(rest) => Some([row] + rest)
  }

  // ---------------------------------------------------------------------------
  // The period-time table

  /** A slot of the day's timetable, bounds inclusive, in minutes. */
  datatype Slot = Slot(start: int, end: int, period: string) {
    predicate Contains(t: int) { start <= t <= end }
  }

  function DaySchedule(dayType: DayType): seq<Slot> {
    match dayType
    case A => [
      Slot(Minutes(8, 45), Minutes(10, 35), "1"),
      Slot(Minutes(10, 40), Minutes(12, 30), "2"),
      Slot(Minutes(12, 35), Minutes(14, 25), "3"),
      Slot(Minutes(14, 30), Minutes(16, 20), "4")]
    case B => [
      Slot(Minutes(8, 45), Minutes(10, 35), "5"),
      Slot(Minutes(10, 40), Minutes(12, 30), "6"),
      Slot(Minutes(12, 35), Minutes(14, 25), "7"),
      Slot(Minutes(14, 30), Minutes(16, 20), "8")]
  }

  /** The period a day falls back to outside every slot. */
  function FirstPeriod(dayType: DayType): string {
    if dayType == A then "1" else "5"
  }

  /** The day's four slots are ordered and separated by passing gaps. */
  lemma ScheduleSlotsDisjoint(dayType: DayType)
    ensures |DaySchedule(dayType)| == 4
    ensures forall i, j | 0 <= i < j < 4 ::
      DaySchedule(dayType)[i].end < DaySchedule(dayType)[j].start
    ensures forall i | 0 <= i < 4 ::
      DaySchedule(dayType)[i].start <= DaySchedule(dayType)[i].end
  {
  }

  /** The `for ... break` search: the index of the first slot containing `t`. */
  function FindSlot(slots: seq<Slot>, t: int): (r: Option<nat>)
    ensures r.Some? ==> && r.value < |slots| && slots[r.value].Contains(t)
                        && forall j | 0 <= j < r.value :: !slots[j].Contains(t)
    ensures r.None? ==> forall j | 0 <= j < |slots| :: !slots[j].Contains(t)
  {
    if slots == [] then None
    else if slots[0].Contains(t) then Some(0)
    else
      match FindSlot(slots[1..], t)
      case None => None
      case Some(k) => Some(k + 1)
  }

  /** The active period at minute `t`: the slot containing `t`, else the
      day's first period. */
  function ActivePeriod(dayType: DayType, t: int): (p: string)
    ensures (exists i | 0 <= i < 4 :: DaySchedule(dayType)[i].Contains(t) && DaySchedule(dayType)[i].period == p)
         || ((forall i | 0 <= i < 4 :: !DaySchedule(dayType)[i].Contains(t)) && p == FirstPeriod(dayType))
  {
    match FindSlot(DaySchedule(dayType), t)
    case Some(i) => DaySchedule(dayType)[i].period
    case None => FirstPeriod(dayType)
  }

  /** Since slots are disjoint, a slot containing `t` decides the period
      (bounds inclusive at both ends). */
  lemma ActivePeriodInSlot(dayType: DayType, i: nat, t: int)
    requires i < 4 && DaySchedule(dayType)[i].Contains(t)
    ensures ActivePeriod(dayType, t) == DaySchedule(dayType)[i].period
  {
    ScheduleSlotsDisjoint(dayType);
  }

  /** Before school, after school and in the five-minute passing gaps the
      period is the day's first: "1" on A days, "5" on B days. */
  lemma ActivePeriodOutsideSlots(dayType: DayType, t: int)
    requires t < Minutes(8, 45) || t > Minutes(16, 20)
          || Minutes(10, 35) < t < Minutes(10, 40)
          || Minutes(12, 30) < t < Minutes(12, 35)
          || Minutes(14, 25) < t < Minutes(14, 30)
    ensures ActivePeriod(dayType, t) == FirstPeriod(dayType)
  {
  }

  /** A day only ever runs its own periods: 1-4 on A days, 5-8 on B days. */
  lemma ActivePeriodBelongsToDay(dayType: DayType, t: int)
    ensures dayType == A ==> ActivePeriod(dayType, t) in {"1", "2", "3", "4"}
    ensures dayType == B ==> ActivePeriod(dayType, t) in {"5", "6", "7", "8"}
  {
  }

  // ---------------------------------------------------------------------------
  // Row selection

  /** `allPeriods.find(p => p.period === period)`, as an index. */
  function FindRow(rows: seq<PeriodRow>, period: string): (r: Option<nat>)
    ensures r.Some? ==> && r.value < |rows| && rows[r.value].period == period
                        && forall j | 0 <= j < r.value :: rows[j].period != period
    ensures r.None? ==> forall j | 0 <= j < |rows| :: rows[j].period != period
  {
    if rows == [] then None
    else if rows[0].period == period then Some(0)
    else
      match FindRow(rows[1..], period)
      case None => None
      case Some(k) => Some(k + 1)
  }

  /** The current row: the first row of the active period, else the first row. */
  function SelectRow(rows: seq<PeriodRow>, period: string): (r: Option<PeriodRow>)
    ensures r.None? <==> rows == []
    ensures r.Some? ==> r.value in rows
  {
    match FindRow(rows, period)
    case Some(k) => Some(rows[k])
    case None => if |rows| > 0 then Some(rows[0]) else None
  }

  /** The selected row is the first one carrying the period when there is
      one, and the first row otherwise. */
  lemma SelectRowChoice(rows: seq<PeriodRow>, period: string)
    requires rows != []
    ensures (exists k | 0 <= k < |rows| :: rows[k].period == period) ==>
      exists k | 0 <= k < |rows| ::
        && SelectRow(rows, period) == Some(rows[k])
        && rows[k].period == period
        && forall j | 0 <= j < k :: rows[j].period != period
    ensures (forall k | 0 <= k < |rows| :: rows[k].period != period) ==>
      SelectRow(rows, period) == Some(rows[0])
  {
  }

  // ---------------------------------------------------------------------------
  // Lunch waves

  const APrefixes: seq<string> := ["200", "700", "900", "1000"]
  const BPrefixes: seq<string> := ["100", "1300"]
  const CPrefixes: seq<string> := ["600", "2200", "2300"]

  predicate StartsWithAny(s: string, prefixes: seq<string>) {
    exists i | 0 <= i < |prefixes| :: StartsWith(s, prefixes[i])
  }

  lemma BandsUnfold(s: string)
    ensures StartsWithAny(s, APrefixes) <==>
      StartsWith(s, "200") || StartsWith(s, "700") || StartsWith(s, "900") || StartsWith(s, "1000")
    ensures StartsWithAny(s, BPrefixes) <==> StartsWith(s, "100") || StartsWith(s, "1300")
    ensures StartsWithAny(s, CPrefixes) <==>
      StartsWith(s, "600") || StartsWith(s, "2200") || StartsWith(s, "2300")
  {
    assert APrefixes[0] == "200" && APrefixes[1] == "700" && APrefixes[2] == "900" && APrefixes[3] == "1000";
    assert BPrefixes[0] == "100" && BPrefixes[1] == "1300";
    assert CPrefixes[0] == "600" && CPrefixes[1] == "2200" && CPrefixes[2] == "2300";
  }

  /** The building bands, tested A, B, C, D in that order; the first match
      wins and no match means D. */
  function LunchWaveFor(room: string): Wave {
    if StartsWith(room, "200") || StartsWith(room, "700")
       || StartsWith(room, "900") || StartsWith(room, "1000") then
      WaveA
    else if StartsWith(room, "100") || StartsWith(room, "1300") then
      WaveB
    else if StartsWith(room, "600") || StartsWith(room, "2200") || StartsWith(room, "2300") then
      WaveC
    else if StartsWith(room, "400") || StartsWith(room, "500")
       || StartsWith(room, "1100") || StartsWith(room, "1400")
       || StartsWith(room, "2400") || StartsWith(room, "1500")
       || StartsWith(room, "2500") then
      WaveD
    else
      WaveD
  }

  /** The wave is the first band, in the order A, B, C, whose prefix list
      the room starts with, and D when there is none: the D band's own list
      never changes the outcome. */
  lemma LunchWaveBands(room: string)
    ensures LunchWaveFor(room) == WaveA <==> StartsWithAny(room, APrefixes)
    ensures LunchWaveFor(room) == WaveB <==>
      !StartsWithAny(room, APrefixes) && StartsWithAny(room, BPrefixes)
    ensures LunchWaveFor(room) == WaveC <==>
      !StartsWithAny(room, APrefixes) && !StartsWithAny(room, BPrefixes) && StartsWithAny(room, CPrefixes)
    ensures LunchWaveFor(room) == WaveD <==>
      !StartsWithAny(room, APrefixes) && !StartsWithAny(room, BPrefixes) && !StartsWithAny(room, CPrefixes)
  {
    BandsUnfold(room);
  }

  /** Rooms in the A, B and C bands. Priority order matters: "1000x" is in
      the 1000 band (A) although it also starts with "100", while "1001"
      only matches "100" (B). */
  lemma LunchWaveExamples()
    ensures LunchWaveFor("1000x") == WaveA
    ensures LunchWaveFor("900B") == WaveA
    ensures LunchWaveFor("1001") == WaveB
    ensures LunchWaveFor("2300") == WaveC
  {
    assert StartsWith("1000x", "1000");
    assert StartsWith("900B", "900");
    assert "1001"[..3] == "100";
    assert "1001"[..3] != "200" && "1001"[..3] != "700" && "1001"[..3] != "900" by {
      assert "1001"[..3][0] == '1';
    }
    assert "1001"[..4] != "1000" by { assert "1001"[..4][3] == '1'; }
    assert "2300"[..3] == "230";
    assert "2300"[..3] != "200" && "2300"[..3] != "100" && "2300"[..3] != "600" by {
      assert "2300"[..3][1] == '3';
    }
    assert "2300"[..4] == "2300";
    assert "2300"[..4] != "1000" && "2300"[..4] != "1300" && "2300"[..4] != "2200" by {
      assert "2300"[..4][1] == '3';
    }
  }

  /** The bands are literal string prefixes, not numeric ranges: rooms
      that match no band prefix, even ones that look like listed rooms
      ("905" next to "900", "1320" next to "1300"), fall to wave D. */
  lemma LunchWaveDefaults()
    ensures LunchWaveFor("905") == WaveD
    ensures LunchWaveFor("1320") == WaveD
  {
    assert "905"[..3] != "900" by { assert "905"[..3][2] == '5'; }
    assert "905"[..3] != "200" && "905"[..3] != "700" && "905"[..3] != "100" && "905"[..3] != "600" by {
      assert "905"[..3][0] == '9';
    }
    assert "1320"[..3] != "200" && "1320"[..3] != "700" && "1320"[..3] != "900"
      && "1320"[..3] != "100" && "1320"[..3] != "600" by {
      assert "1320"[..3][1] == '3';
    }
    assert "1320"[..4] != "1000" && "1320"[..4] != "1300" && "1320"[..4] != "2200" && "1320"[..4] != "2300" by {
      assert "1320"[..4][2] == '2';
      assert "1320"[..4][0] == '1';
    }
  }

  predicate IsMidDayPeriod(period: string) {
    period == "3" || period == "7"
  }

  /** The mid-day periods are exactly the third slots of the two day types. */
  lemma MidDayIsThirdSlot(period: string)
    ensures IsMidDayPeriod(period) <==> exists d: DayType :: period == DaySchedule(d)[2].period
  {
    assert DaySchedule(A)[2].period == "3" && DaySchedule(B)[2].period == "7";
  }

  /** The `lunch` field of the selected row, if any. */
  function LunchFor(row: PeriodRow): (r: Option<Wave>)
    ensures r.Some? <==>
      (exists d: DayType :: row.period == DaySchedule(d)[2].period) && row.room.Truthy()
    ensures r == Some(WaveA) <==> r.Some? && StartsWithAny(Trim(row.room.ToStr()), APrefixes)
    ensures r == Some(WaveB) <==> r.Some? && !StartsWithAny(Trim(row.room.ToStr()), APrefixes)
                                          && StartsWithAny(Trim(row.room.ToStr()), BPrefixes)
    ensures r == Some(WaveC) <==> r.Some? && !StartsWithAny(Trim(row.room.ToStr()), APrefixes)
                                          && !StartsWithAny(Trim(row.room.ToStr()), BPrefixes)
                                          && StartsWithAny(Trim(row.room.ToStr()), CPrefixes)
    ensures r == Some(WaveD) <==> r.Some? && !StartsWithAny(Trim(row.room.ToStr()), APrefixes)
                                          && !StartsWithAny(Trim(row.room.ToStr()), BPrefixes)
                                          && !StartsWithAny(Trim(row.room.ToStr()), CPrefixes)
  {
    MidDayIsThirdSlot(row.period);
    LunchWaveBands(Trim(row.room.ToStr()));
    if IsMidDayPeriod(row.period) && row.room.Truthy() then
      Some(LunchWaveFor(Trim(row.room.ToStr())))
    else
      None
  }

  // ---------------------------------------------------------------------------
  // The resolver

  /** The result for the normalised rows on a school day: the row of the
      active period (or the first row) with its lunch wave, or the
      no-class result when there are no rows. */
  function ClassFor(all: seq<PeriodRow>, name: Value, now: Instant): ClassInfo {
    var abDay := DayTypeOn(now.day);
    var period := ActivePeriod(abDay, now.minute);
    match SelectRow(all, period)
    case None => NoClassInfo(abDay, all)
    case Some(row) =>
      Current(name.Or(Str("Student")), now.day, abDay, row.period,
              row.className, row.teacher, row.room, LunchFor(row), all)
  }

  /** `getCurrentClassInfo` once the report has been fetched and parsed;
      `None` is a report that is falsy or not an object. */
  function Resolve(report: Option<Report>, now: Instant): (r: ClassInfo)
    ensures report.None? || report.value.data.NoData? ==> r == Message(NoScheduleMessage)
    ensures report.Some? && !report.value.data.NoData? && IsWeekend(now.day) ==>
      r == Message(WeekendMessage)
  {
    if report.None? || report.value.data.NoData? then Message(NoScheduleMessage)
    else if IsWeekend(now.day) then Message(WeekendMessage)
    else
      match report.value.data
      case NotAnArray => Message(ErrorMessage)
      case Rows(raw) =>
        match NormaliseRows(raw)
        case None => Message(ErrorMessage)
        case Some(all) =>
          ClassFor(all, report.value.name, now)
  }

  /** The outcome of fetching and parsing the report. */
  datatype Fetched = FetchFailed | Parsed(report: Option<Report>)

  /** A failed fetch or JSON parse lands in the same catch as any other error. */
  function GetCurrentClassInfo(fetched: Fetched, now: Instant): (r: ClassInfo)
    ensures fetched.FetchFailed? ==> r == Message(ErrorMessage)
  {
    match fetched
    case FetchFailed => Message(ErrorMessage)
    case Parsed(report) => Resolve(report, now)
  }
}

=== FILE: timer.dfy ===
/**
 The check-out timer: the shared start instant that `startTimer` records,
 the elapsed time each tick and `stopTimer` report, and `formatDuration`,
 which renders a millisecond duration as "{m}m {s}s".

 Clocks are millisecond integers passed in by the caller; the one-second
 `setInterval` and the tick callback are not modelled, only what they compute.
 */
module Timer {
  import opened Options
  import opened JsText
  import opened Decimal

  // ---------------------------------------------------------------------------
  // Start and elapsed time

  /** The module-level `globalStart`: `None` until the first `startTimer`. */
  datatype TimerState = TimerState(globalStart: Option<int>)

  const Initial := TimerState(None)

  /** `resumeStartTime || Date.now()`: a missing or zero resume time is falsy,
      so the timer starts at the current clock instead. */
  function StartInstant(resume: Option<int>, clock: int): int {
    match resume
    case Some(t) => if t != 0 then t else clock
    case None => clock
  }

  /** `startTimer(onTick, resume)` at `clock`: the new start replaces whatever
      an earlier call stored. */
  function Start(t: TimerState, resume: Option<int>, clock: int): (t': TimerState)
    ensures t'.globalStart.Some?
  {
    TimerState(Some(StartInstant(resume, clock)))
  }

  /** `Date.now() - globalStart`, what every tick and `stopTimer` report;
      subtracting `null` subtracts 0. */
  function Elapsed(t: TimerState, clock: int): int {
    clock - t.globalStart.GetOr(0)
  }

  /** `stopTimer(clearFn)` at `clock`: the elapsed time since the stored start. */
  function Stop(t: TimerState, clock: int): (duration: int)
    ensures t.globalStart.Some? ==> clock == t.globalStart.value + duration
  {
    Elapsed(t, clock)
  }

  /** A truthy resume time is kept exactly; 0 and a missing value both
      mean "now", so they cannot be told apart. */
  lemma StartInstantChoice(resume: Option<int>, clock: int)
    ensures resume.Some? && resume.value != 0 ==> StartInstant(resume, clock) == resume.value
    ensures StartInstant(Some(0), clock) == StartInstant(None, clock) == clock
  {
  }

  /** Ticks are recomputed from the stored start, not accumulated, so a
      clock that does not go backwards gives ticks that do not decrease. */
  lemma ElapsedMonotone(t: TimerState, c1: int, c2: int)
    requires c1 <= c2
    ensures Elapsed(t, c1) <= Elapsed(t, c2)
    ensures Elapsed(t, c2) - Elapsed(t, c1) == c2 - c1
  {
  }

  /** A fresh start at `c0` reports exactly the time since `c0`, which is
      never negative for a later clock. */
  lemma FreshStartElapsed(t: TimerState, c0: int, c: int)
    ensures Elapsed(Start(t, None, c0), c) == c - c0
    ensures c0 <= c ==> Elapsed(Start(t, None, c0), c) >= 0
  {
  }

  /** `stopTimer` measures from the most recent `startTimer`: whatever was
      started before is forgotten. */
  lemma RestartOverwrites(t: TimerState, r1: Option<int>, c1: int, r2: Option<int>, c2: int, c3: int)
    ensures Stop(Start(Start(t, r1, c1), r2, c2), c3) == Stop(Start(Initial, r2, c2), c3)
    ensures Stop(Start(Start(t, r1, c1), r2, c2), c3) == c3 - StartInstant(r2, c2)
  {
  }

  // ---------------------------------------------------------------------------
  // formatDuration

  /** The quotient `a / b` rounded toward zero, as JavaScript's `%` uses it. */
  function TruncDiv(a: int, b: int): int
    requires b > 0
  {
    if a >= 0 then a / b else -((-a) / b)
  }

  /** JavaScript's `%`: the remainder takes the sign of the dividend. */
  function TruncRem(a: int, b: int): (r: int)
    requires b > 0
    ensures a >= 0 ==> 0 <= r < b
    ensures a < 0 ==> -b < r <= 0
    ensures a == b * TruncDiv(a, b) + r
  {
    if a >= 0 then a % b
    else
      var q, m := (-a) / b, (-a) % b;
      assert -a == b * q + m;
      assert b * -q == -(b * q);
      -m
  }

  /** The two numbers `formatDuration` prints. */
  datatype Duration = Duration(minutes: int, seconds: int)

  /** `totalSeconds = Math.floor(ms / 1000)`, `minutes = Math.floor(totalSeconds / 60)`
      (Dafny's `/` by a positive divisor rounds down as `Math.floor` does), and
      `seconds = totalSeconds % 60` with JavaScript's remainder. */
  function Parts(ms: int): (d: Duration)
    ensures ms >= 0 ==> 0 <= d.seconds <= 59 && d.minutes >= 0
    ensures ms >= 0 ==> d.minutes * 60 + d.seconds == ms / 1000
  {
    var total := ms / 1000;
    Duration(total / 60, TruncRem(total, 60))
  }

  /** The whole seconds a duration stands for. */
  function TotalSeconds(d: Duration): int {
    d.minutes * 60 + d.seconds
  }

  /** `${minutes}m ${seconds}s`. */
  function FormatDuration(ms: int): string {
    var d := Parts(ms);
    IntToString(d.minutes) + "m " + IntToString(d.seconds) + "s"
  }

  /** Reads "{m}m {s}s" back: two space-separated words, the first ending in
      'm' and the second in 's', each otherwise an integer numeral. */
  function ParseDuration(text: string): Option<Duration> {
    var words := Split(text, ' ');
    if |words| == 2 && |words[0]| >= 1 && words[0][|words[0]| - 1] == 'm'
       && |words[1]| >= 1 && words[1][|words[1]| - 1] == 's' then
      match (ParseInt(words[0][..|words[0]| - 1]), ParseInt(words[1][..|words[1]| - 1]))
      case (Some(m), Some(s)) => Some(Duration(m, s))
      case _ => None
    else
      None
  }

  /** A printed integer has no space in it. */
  lemma IntToStringHasNoSpace(i: int)
    ensures ' ' !in IntToString(i)
  {
    var s := IntToString(i);
    var digits := NatToDecimal(if i < 0 then -i else i);
    assert forall k | 0 <= k < |digits| :: digits[k] != ' ';
    if i < 0 {
      assert s == "-" + digits;
      assert forall k | 1 <= k < |s| :: s[k] == digits[k - 1];
    } else {
      assert s == digits;
    }
  }

  /** The text "{m}m {s}s" splits at its one space into the two words. */
  lemma SplitFormatted(m: string, s: string)
    requires ' ' !in m && ' ' !in s
    ensures Split(m + "m " + s + "s", ' ') == [m + "m", s + "s"]
  {
    var head, tail := m + "m", s + "s";
    assert ' ' !in head by {
      assert forall k | 0 <= k < |head| :: head[k] == (if k < |m| then m[k] else 'm');
    }
    assert ' ' !in tail by {
      assert forall k | 0 <= k < |tail| :: tail[k] == (if k < |s| then s[k] else 's');
    }
    assert m + "m " + s + "s" == head + [' '] + tail;
    SplitAtFirst(head, ' ', tail);
    SplitNone(tail, ' ');
  }

  /** The rendering can be read back: parsing a formatted duration gives the
      minutes and seconds it was printed from, for every duration. */
  lemma FormatDurationRoundTrip(ms: int)
    ensures ParseDuration(FormatDuration(ms)) == Some(Parts(ms))
  {
    var d := Parts(ms);
    var m, s := IntToString(d.minutes), IntToString(d.seconds);
    IntToStringHasNoSpace(d.minutes);
    IntToStringHasNoSpace(d.seconds);
    SplitFormatted(m, s);
    var words := [m + "m", s + "s"];
    assert words[0][..|words[0]| - 1] == m;
    assert words[1][..|words[1]| - 1] == s;
  }

  /** For a non-negative duration the printed text stands for exactly the
      whole seconds elapsed: 59999 ms reads as 59 s and 60000 ms as 60 s. */
  lemma FormatDurationWholeSeconds(ms: int)
    requires ms >= 0
    ensures ParseDuration(FormatDuration(ms)).Some?
    ensures TotalSeconds(ParseDuration(FormatDuration(ms)).value) == ms / 1000
    ensures 0 <= ParseDuration(FormatDuration(ms)).value.seconds <= 59
  {
    FormatDurationRoundTrip(ms);
  }

  /** Just under a minute prints as "0m 59s"; a full minute as "1m 0s". */
  lemma FormatDurationExamples()
    ensures Parts(59999) == Duration(0, 59)
    ensures Parts(60000) == Duration(1, 0)
  {
  }

  /** A negative duration (a stored start later than the clock) mixes
      rounding directions: minutes round down while the seconds keep the
      sign of the total, so -1000 ms prints as "-1m -1s", which stands for
      -61 s rather than -1 s. */
  lemma NegativeDurationMixesRounding()
    ensures Parts(-1000) == Duration(-1, -1)
    ensures TotalSeconds(Parts(-1000)) != -1000 / 1000
  {
  }
}
